=== FILE: README.md ===
# jellyplay-client: the mpv remote-control core, in Dafny

The Jellyplay desktop client plays a stream by launching the mpv player for
an `mpv://` (or `mpvs://`) link. While mpv runs, the client asks mpv for its
playback position over mpv's JSON IPC socket and passes each position back to
the web page. This project models that core and proves properties of the model:

- `handleMpvUri` (src/mpv-handler.ts) turns a link into a request. The request
  holds the stream URL, a start position and an optional subtitle URL. From it
  the function builds mpv's argument vector: the URL, a Basic authentication
  header, `--start`, `--sub-file`, and the IPC socket path.
- `MpvApi` (src/mpv-api.ts) is the polling client. 500 ms after
  `startPolling` it connects to the socket and sends
  `{"command":["get_property_string","playback-time"],"request_id":N}`. Replies
  arrive as newline-separated JSON; the client frames them into lines. A reply
  to the current query with status "success" reports the floor of its value,
  if that is above zero. While polling, every data event schedules, 3 s
  later, a query with the next id.

Modules, in dependency order:

- `Wrappers` holds `Option`.
- `Decimal` converts digit strings to numbers and back: `parseInt` of a digit
  run, and number-to-string.
- `Utf8` models the encoding `Buffer.from(string)` applies.
- `Base64` is the encoding of section 4 of RFC 4648, with `=` padding.
- `JsText` covers ECMAScript whitespace, `String.prototype.trim` and
  `split('\n')`.
- `JsNumber` models `parseFloat` followed by `Math.floor`.
- `MpvUri` is the link's regular expression, written as an explicit matcher,
  plus the request it yields.
- `MpvCommandLine` builds the argument vector.
- `MpvApi` is the polling client as a state machine. Every timer, socket event
  and owner call is a transition over an immutable `Poller` record.
- `MpvPolling` holds the properties of whole event sequences.
- `MpvScenarios` holds worked examples.

The regular expression is `/mpv([s]{0,1}):\/\/(.*)\?pos=([0-9]*)(&hasSrt)?/`,
unanchored. `MpvUri.IsRegexMatch` states its semantics declaratively:

- the match starts at the leftmost position where the pattern can start;
- the greedy `(.*)` cannot cross a line terminator (`\n`, `\r`, U+2028 or
  U+2029), so the payload ends at the last `?pos=` before the first line
  terminator;
- the digit group is maximal;
- `&hasSrt` counts only right after the digits.

`MpvUri.Exec` is proved to return exactly that match.

Behaviour of the code worth knowing, which the model follows:

- **Stopping does not cancel timers.** `stopPolling` (src/mpv-api.ts:17-23)
  clears a flag and ends the socket if one exists. It does not cancel the
  500 ms connect timer or the 3 s query timers.
  - A stop before the connection still opens a socket, and the client never
    closes that socket (`MpvPolling.StopBeforeConnectStillConnects`).
  - After a close event, pending query timers still call `write` on the dead
    socket while the flag is set.
  - No code in the program calls `stopPolling`: the only call on the client
    is `mpvApi.startPolling()` at src/mpv-handler.ts:45, and the player's
    exit handler does not stop it. The stop lemmas
    (`MpvPolling.StoppedStaysQuiet`, `MpvPolling.StopSilences`,
    `MpvPolling.StopBeforeConnectStillConnects`) describe the public
    method for a caller that would use it, not a path the program takes.
- **Queries are paced by data events, not by a fixed period.** While
  polling, the code schedules one query timer per data event
  (src/mpv-api.ts:61-64), whatever the bytes of that event are. A data event
  that arrives when the client is not polling returns early
  (src/mpv-api.ts:46) and schedules nothing; so the socket a stop before the
  connection leaves open never queries.
  - A reply split over two reads schedules two queries.
  - If no further data arrives after a lost reply, no further query is sent.
    Any later data on the socket, such as an unsolicited event line from
    mpv, restarts the cycle.
- **`mpvs://` links never reach the parser by navigation.** main.ts routes
  only links whose protocol is `mpv:` to the handler (src/main.ts:140), so
  navigating to an `mpvs://` link starts nothing. The parser handles both
  schemes regardless.

## Model

| member | source | states |
|---|---|---|
| Decimal.FromNat | src/mpv-handler.ts:24 | the text `--start=` carries is the canonical decimal spelling of the position and reads back as that number |
| Decimal.FromValue | src/mpv-handler.ts:10 | parsing canonical digits and printing the number gives the digits back |
| Decimal.ValueAppend | src/mpv-handler.ts:10 | the value of concatenated digit strings is the first shifted by the length of the second plus the second |
| Utf8.KnownAnswers | src/mpv-handler.ts:23 | ASCII characters encode as their own byte, and U+00E9, U+20AC and U+1F600 take the two-, three- and four-byte forms of RFC 3629 |
| Utf8.DecodeEncode | src/mpv-handler.ts:23 | the UTF-8 bytes of the credentials decode back to exactly the credentials |
| Base64.EncodeShape | src/mpv-handler.ts:23 | the token has 4 characters per started 3 bytes, all from the alphabet except the padding; exactly the last `(3 - n % 3) % 3` characters are `=`, for n input bytes |
| Base64.DecodeEncode | src/mpv-handler.ts:23 | decoding the token gives back exactly the encoded bytes |
| Base64.Rfc4648Vectors | src/mpv-handler.ts:23 | the encoder gives the test vectors of section 10 of RFC 4648 ("f" is `Zg==`, "foobar" is `Zm9vYmFy`) and encodes the bytes FB FF as `+/8=`, which fixes the bit order and the characters for sextets 62 and 63 |
| JsText.Trim | src/mpv-api.ts:55 | `trim()` removes exactly a whitespace prefix and suffix and leaves a result that neither starts nor ends with whitespace |
| JsText.TrimEmptyIffBlank | src/mpv-api.ts:55 | a line is skipped exactly when it consists of whitespace only |
| JsText.SplitRecombines | src/mpv-api.ts:51-52 | the pieces of `split('\n')` put back together with line feeds are the buffer |
| JsText.SplitUnique | src/mpv-api.ts:51-52 | any decomposition of a buffer into newline-free lines plus a newline-free tail is the one `split` produces |
| JsNumber.FixedPointFloor | src/mpv-api.ts:102 | `Math.floor(parseFloat("<digits>.<digits>"))` is the integer part, never rounded up |
| JsNumber.IntegerFloor | src/mpv-api.ts:102 | an integer string floors to its own value |
| JsNumber.NegativeNotPositive | src/mpv-api.ts:102-103 | a value written with a minus sign floors to at most zero |
| MpvUri.MatchAt | src/mpv-handler.ts:6 | a match at a position uses the last `?pos=` the payload can reach; no match there means the pattern cannot start there |
| MpvUri.FindFromLeftmost | src/mpv-handler.ts:6 | the match found starts where no earlier position can start the pattern |
| MpvUri.FindFromNone | src/mpv-handler.ts:6 | when the search finds nothing, the pattern starts nowhere in the searched range |
| MpvUri.ExecSound | src/mpv-handler.ts:6 | a match found by the matcher is the leftmost, greedy, maximal-digit match of the regular expression |
| MpvUri.ExecComplete | src/mpv-handler.ts:6 | whenever the regular expression matches, the matcher returns exactly that match |
| MpvUri.RegexMatchUnique | src/mpv-handler.ts:6 | the regular expression determines at most one match of a link |
| MpvUri.ParseUriNoneIff | src/mpv-handler.ts:6-8 | a link yields no request exactly when the pattern matches nowhere in it |
| MpvUri.ParseUriUrl | src/mpv-handler.ts:9 | the stream URL is "https://" (for `mpvs`) or "http://" (for `mpv`) followed by the payload group |
| MpvUri.ParseUriPosition | src/mpv-handler.ts:10 | the position is -1 exactly when the digit group is empty and the value of the digits otherwise |
| MpvUri.ParseUriSubtitle | src/mpv-handler.ts:11 | the subtitle URL is the stream URL plus ".srt" exactly when `&hasSrt` follows the digits, and empty otherwise |
| MpvUri.ParseUriWellFormed | src/mpv-handler.ts:6-11 | every request has an http(s) URL, a position of at least -1, and an empty or derived subtitle URL |
| MpvUri.ParseLink | src/mpv-handler.ts:6-11 | building a link from payload, digits and flag and parsing it gives back that URL, position and subtitle URL; text after the link changes nothing when it holds no `?pos=`, does not continue the digits and does not supply a missing `&hasSrt` |
| MpvCommandLine.DropEmpty | src/mpv-handler.ts:27 | the filter keeps exactly the non-empty tokens |
| MpvCommandLine.DropEmptyAppend | src/mpv-handler.ts:27 | filtering distributes over concatenation, so token order is kept |
| MpvCommandLine.BuildArgsShape | src/mpv-handler.ts:21-27 | the vector is URL, header, optional start, optional subtitle, IPC path, in that order |
| MpvCommandLine.BuildArgsProperties | src/mpv-handler.ts:21-27 | no token is empty; `--start=` appears exactly when the position is above -1 and `--sub-file=` exactly when there is a subtitle URL; the count is 3 plus the optional ones |
| MpvCommandLine.StartOptionIff | src/mpv-handler.ts:24 | a `--start=` option is in the vector exactly when the position is above -1 |
| MpvCommandLine.SubFileOptionIff | src/mpv-handler.ts:25 | a `--sub-file=` option is in the vector exactly when there is a subtitle URL |
| MpvCommandLine.BasicTokenKnownAnswer | src/mpv-handler.ts:23 | the header token for login "a" and password "b" is `YTpi` |
| MpvCommandLine.AuthHeaderRoundTrip | src/mpv-handler.ts:23 | decoding the header's base64 payload yields exactly `login:password` |
| MpvCommandLine.HandleUriSpawnsIffMatch | src/mpv-handler.ts:5-27 | a player is started exactly when the pattern matches, with the parsed URL as the first argument |
| MpvApi.CommandRoundTrip | src/mpv-api.ts:86-89 | the request id can be read back out of every query |
| MpvApi.CommandIsOneLine | src/mpv-api.ts:86-89 | a query is one line ending in its only line feed |
| MpvApi.SendCommand | src/mpv-api.ts:82-95 | a query is written exactly when a socket exists and polling is on, and nothing else changes |
| MpvApi.Accept | src/mpv-api.ts:97-110 | a reported position is always positive |
| MpvApi.AcceptOnlyCurrent | src/mpv-api.ts:101-102 | only a reply to the current id, with status "success" and non-empty data, reports, and it reports the floor of the data |
| MpvApi.AcceptFixedPoint | src/mpv-api.ts:101-104 | a reply "<int>.<frac>" reports the integer part, or nothing when that part is 0 |
| MpvApi.AcceptRejectsNegative | src/mpv-api.ts:102-103 | a negative value never reports |
| MpvApi.LineReport | src/mpv-api.ts:55-56 | a line that reports goes through the reply check with a positive result |
| MpvApi.ReportsOf | src/mpv-api.ts:54-58 | a batch of lines reports at most one positive position per line, and every line that reports contributes its position |
| MpvApi.AcceptedLineReports | src/mpv-api.ts:54-58 | every non-blank line that is an accepted reply to the current query has its position reported |
| MpvApi.ReportsOfAppend | src/mpv-api.ts:54-58 | lines are processed in arrival order: reports of consecutive batches concatenate |
| MpvApi.ReportsComeFromAcceptedLines | src/mpv-api.ts:54-58 | every report comes from a non-blank line accepted against the current id |
| MpvApi.UnacceptedReportNothing | src/mpv-api.ts:54-58 | lines that are not accepted replies add no report |
| MpvApi.FramingPreservesContent | src/mpv-api.ts:48-52 | complete lines plus the kept fragment are exactly the buffer, and no piece holds a line feed |
| MpvApi.OnData | src/mpv-api.ts:45-65 | data while stopped changes nothing; otherwise one tick is scheduled, the complete lines with their line feeds followed by the kept fragment are the old buffer plus the chunk, the fragment has no line feed, earlier reports are kept, nothing is written and the flag, socket and timer stay as they were |
| MpvApi.OnTick | src/mpv-api.ts:61-64 | a tick raises the id by one and queries with the new id exactly when a socket exists and polling is on; nothing else (flag, socket, buffer, reports, timer) changes |
| MpvApi.StartPolling | src/mpv-api.ts:12-15 | starting sets the flag and arms the connect timer, nothing else |
| MpvApi.OnConnectDelay | src/mpv-api.ts:25-38 | the connect timer opens a socket with an empty buffer and id 1, whether or not polling was stopped; the flag, writes, reports and pending ticks stay as they were |
| MpvApi.OnConnect | src/mpv-api.ts:40-43 | connecting sends the query with the current id exactly when polling is on; nothing but the socket phase and the writes changes |
| MpvApi.OnClose | src/mpv-api.ts:67-75 | an error or close only marks the socket closed |
| MpvApi.StopPolling | src/mpv-api.ts:17-23 | stopping clears the flag, closes an existing socket and touches nothing else, timers included |
| MpvApi.StopIdempotent | src/mpv-api.ts:17-23 | stopping twice is stopping once |
| MpvPolling.StepInv | src/mpv-api.ts:12-110 | every event preserves the invariant: ids at least 1, queries ordered by strictly increasing id, no line feed in the buffer, positive reports |
| MpvPolling.RunInv | src/mpv-api.ts:12-110 | the invariant holds after any sequence of events |
| MpvPolling.Reachable | src/mpv-api.ts:37-38 | in every reachable state each write is a query, ids are never reused and only grow, and every reported position is positive |
| MpvPolling.StoppedStaysQuiet | src/mpv-api.ts:46 | once polling has started and stopped, no event writes or reports again |
| MpvPolling.StopSilences | src/mpv-api.ts:17-23 | after a stop, later timers and socket events produce no query and no report |
| MpvPolling.StopBeforeConnectStillConnects | src/mpv-api.ts:17-30 | a stop before the 500 ms delay still lets the timer open a socket, which stays silent |
| MpvPolling.FirstQuery | src/mpv-api.ts:12-43 | start, connect delay and connection write exactly one query, with id 1, and leave the client polling on a connected socket with an empty buffer |
| MpvPolling.PollingContinues | src/mpv-api.ts:40-64 | after the first query, any read followed by its 3 s timer writes the query with id 2, and the client is still polling on its socket |
| MpvPolling.FramingSplitsAnywhere | src/mpv-api.ts:48-52 | framing two reads in turn yields the lines and fragment of framing their concatenation |
| MpvPolling.ChunkingIrrelevant | src/mpv-api.ts:45-65 | a reply split over two reads reports what one read reports and keeps the same fragment; only one more tick is scheduled |
| MpvPolling.DataReportsOnlyCurrentReplies | src/mpv-api.ts:54-58 | every position a data event reports answers the current query |
| MpvPolling.DataReportsEveryCurrentReply | src/mpv-api.ts:45-58 | while polling, every complete non-blank line of a read that is an accepted reply to the current query is reported by that read |
| MpvPolling.StaleRepliesIgnored | src/mpv-api.ts:101 | a read holding only stale, failed or non-positive replies reports nothing |
| MpvScenarios.SecureLinkWithSubtitles | src/mpv-handler.ts:6-11 | `mpvs://host/video?pos=42&hasSrt` yields `https://host/video`, 42 and `https://host/video.srt` |
| MpvScenarios.LastMarkerWins | src/mpv-handler.ts:6 | `mpv://a?pos=1?pos=2` keeps `a?pos=1` as payload and plays from 2 |
| MpvScenarios.EmptyPositionIsMinusOne | src/mpv-handler.ts:10 | `mpv://host/v?pos=` has position -1 |
| MpvScenarios.TrailingTextIgnored | src/mpv-handler.ts:6 | `mpvs://h/v?pos=90&hasSrt&lang=fr` parses as if `&lang=fr` were absent |
| MpvScenarios.FlagMustFollowDigits | src/mpv-handler.ts:6-11 | in `mpv://h/v?pos=5&x&hasSrt` the flag does not follow the digits, so there is no subtitle URL |
| MpvScenarios.ReplyReportsWholeSeconds | src/mpv-api.ts:101-104 | the reply "125.912" to the current query reports 125 |
| MpvScenarios.FirstSecondNotReported | src/mpv-api.ts:102-103 | the reply "0.4" reports nothing |
| MpvScenarios.ZeroNotReported | src/mpv-api.ts:102-103 | the reply "0" reports nothing |
| MpvScenarios.StaleReplyDropped | src/mpv-api.ts:101 | a reply to query 6 after query 7 was sent reports nothing |

## Left out

- Process launch and exit (src/mpv-handler.ts:16-19, 29-56): the mpv path, `spawn`, logging, the exit notification and the position callback's JavaScript are I/O. The model stops at the argument vector, and the callback becomes the `reported` sequence.
- Real timers, sockets and the named pipe: the 500 ms and 3 s delays become `ConnectDelayElapsed` and `PollDelayElapsed` events, and the socket's writes become the `outbox` sequence. Any interleaving of events is allowed.
- `reconnect` (src/mpv-api.ts:112-129): every call to it is commented out, so it never runs.
- `JSON.parse` is a parameter `decode` of the data handler. A line it rejects, which the code catches and logs, is `None`. The model keeps only `request_id`, `error` and `data`.
- MpvApi.Accept: `data` is modelled as a string. A truthy non-string `data` (a number, say) goes through `parseFloat`'s string conversion in the code, and the model does not cover that case.
- JsNumber.FloorOf: values are exact rationals, not IEEE doubles, so a literal whose double rounds across an integer (17 nines after the point, say) floors differently. The "Infinity" spelling is not parsed.
- MpvUri.ParseUri: `parseInt` loses precision past 2^53, and the model reads the digits exactly.
- MpvCommandLine.StartArg: JavaScript prints numbers of 10^21 and above in exponent form, and the model always prints plain decimal digits.
- MpvApi.Command: the same bound applies to request ids, which would need 10^21 polls to reach.
- Strings are sequences of Unicode scalar values. A JavaScript string holding a lone surrogate cannot be expressed, and `Buffer.from` would encode one as U+FFFD.
- A UTF-8 character split between two data events: `data.toString()` decodes each chunk separately. The model takes each chunk as already-decoded text.
- A second `startPolling` call on the same client: the model allows only one start, because a second one would open a second socket over the first.
- src/main.ts, src/connection-manager.ts, src/download-handler.ts, src/types.ts and src/preload.ts (window set-up, server selection, downloads and the other link protocol) are not part of this model.

=== FILE: base64.dfy ===
/** Base64 as defined in section 4 of RFC 4648 (alphabet A-Z a-z 0-9 + /,
    '=' padding), which is what `Buffer.toString('base64')` produces. */
module Base64 {
  import opened Wrappers
  import opened Utf8

  type Sextet = i: int | 0 <= i < 64

  function IndexChar(i: Sextet): char {
    if i < 26 then ('A' as int + i) as char
    else if i < 52 then ('a' as int + (i - 26)) as char
    else if i < 62 then ('0' as int + (i - 52)) as char
    else if i == 62 then '+'
    else '/'
  }

  function CharIndex(c: char): Option<Sextet> {
    if 'A' <= c <= 'Z' then Some(c as int - 'A' as int)
    else if 'a' <= c <= 'z' then Some(c as int - 'a' as int + 26)
    else if '0' <= c <= '9' then Some(c as int - '0' as int + 52)
    else if c == '+' then Some(62)
    else if c == '/' then Some(63)
    else None
  }

  predicate IsAlphabet(c: char) {
    CharIndex(c).Some?
  }

  /** The alphabet is a bijection between sextets and its 64 characters. */
  lemma CharIndexOfIndexChar(i: Sextet)
    ensures CharIndex(IndexChar(i)) == Some(i)
  {
  }

  /** Three bytes become four characters. */
  function EncodeTriple(b0: Byte, b1: Byte, b2: Byte): string {
    [IndexChar(b0 / 4), IndexChar((b0 % 4) * 16 + b1 / 16),
     IndexChar((b1 % 16) * 4 + b2 / 64), IndexChar(b2 % 64)]
  }

  /** Encodes `bs`; a final group of one or two bytes is padded with '='. */
  function Encode(bs: seq<Byte>): string
  {
    if |bs| == 0 then ""
    else if |bs| == 1 then
      [IndexChar(bs[0] / 4), IndexChar((bs[0] % 4) * 16), '=', '=']
    else if |bs| == 2 then
      [IndexChar(bs[0] / 4), IndexChar((bs[0] % 4) * 16 + bs[1] / 16), IndexChar((bs[1] % 16) * 4), '=']
    else
      EncodeTriple(bs[0], bs[1], bs[2]) + Encode(bs[3..])
  }

  /** No character of the alphabet is the padding character. */
  lemma IndexCharNotPad(i: Sextet)
    ensures IsAlphabet(IndexChar(i)) && IndexChar(i) != '='
  {
    CharIndexOfIndexChar(i);
  }

  /** Alphabet characters followed by a padded tail form a padded text
      with the same padding. */
  lemma PaddedCons(head: string, tail: string, pad: nat)
    requires forall k :: 0 <= k < |head| ==> IsAlphabet(head[k]) && head[k] != '='
    requires pad <= |tail|
    requires forall k :: 0 <= k < |tail| ==> IsAlphabet(tail[k]) || tail[k] == '='
    requires forall k :: 0 <= k < |tail| ==> (tail[k] == '=' <==> k >= |tail| - pad)
    ensures forall k :: 0 <= k < |head + tail| ==> IsAlphabet((head + tail)[k]) || (head + tail)[k] == '='
    ensures forall k :: 0 <= k < |head + tail| ==> ((head + tail)[k] == '=' <==> k >= |head + tail| - pad)
  {
    var e := head + tail;
    forall k | 0 <= k < |e|
      ensures IsAlphabet(e[k]) || e[k] == '='
      ensures e[k] == '=' <==> k >= |e| - pad
    {
      if k >= |head| {
        assert e[k] == tail[k - |head|];
      }
    }
  }

  /** Every three bytes (or fewer, at the end) become four characters of
      the alphabet; exactly the last `(3 - |bs| % 3) % 3` characters are
      '=' padding. */
  lemma {:induction false} EncodeShape(bs: seq<Byte>)
    ensures |Encode(bs)| == 4 * ((|bs| + 2) / 3)
    ensures forall k :: 0 <= k < |Encode(bs)| ==> IsAlphabet(Encode(bs)[k]) || Encode(bs)[k] == '='
    ensures forall k :: 0 <= k < |Encode(bs)| ==> (Encode(bs)[k] == '=' <==> k >= |Encode(bs)| - (3 - |bs| % 3) % 3)
  {
    if |bs| >= 3 {
      EncodeShape(bs[3..]);
      var pad := (3 - |bs| % 3) % 3;
      PadOfRest(|bs|);
      IndexCharNotPad(bs[0] / 4);
      IndexCharNotPad((bs[0] % 4) * 16 + bs[1] / 16);
      IndexCharNotPad((bs[1] % 16) * 4 + bs[2] / 64);
      IndexCharNotPad(bs[2] % 64);
      EncodeStep(bs);
      PaddedCons(EncodeTriple(bs[0], bs[1], bs[2]), Encode(bs[3..]), pad);
    } else {
      EncodeShapeShort(bs);
    }
  }

  /** Three bytes fewer leave the length of the padding, and of the text
      less one group, as they were. */
  lemma PadOfRest(n: nat)
    requires n >= 3
    ensures (3 - n % 3) % 3 == (3 - (n - 3) % 3) % 3
    ensures 4 * ((n + 2) / 3) == 4 + 4 * ((n - 3 + 2) / 3)
    ensures (3 - n % 3) % 3 <= 4 * ((n - 3 + 2) / 3)
  {
  }

  /** The shape of a final group of fewer than three bytes. */
  lemma EncodeShapeShort(bs: seq<Byte>)
    requires |bs| < 3
    ensures |Encode(bs)| == 4 * ((|bs| + 2) / 3)
    ensures forall k :: 0 <= k < |Encode(bs)| ==> IsAlphabet(Encode(bs)[k]) || Encode(bs)[k] == '='
    ensures forall k :: 0 <= k < |Encode(bs)| ==> (Encode(bs)[k] == '=' <==> k >= |Encode(bs)| - (3 - |bs| % 3) % 3)
  {
    if |bs| == 2 {
      IndexCharNotPad(bs[0] / 4);
      IndexCharNotPad((bs[0] % 4) * 16 + bs[1] / 16);
      IndexCharNotPad((bs[1] % 16) * 4);
    } else if |bs| == 1 {
      IndexCharNotPad(bs[0] / 4);
      IndexCharNotPad((bs[0] % 4) * 16);
    }
  }

  /** The test vectors of section 10 of RFC 4648 ("", "f", "fo", "foo",
      "foob", "fooba", "foobar"), and the bytes FB FF, whose sextets 62 and
      63 are where this alphabet differs from the URL-safe one of section 5:
      together they fix the bit order within each group and the characters
      for 62 and 63. */
  lemma Rfc4648Vectors()
    ensures Encode([]) == ""
    ensures Encode([102]) == "Zg=="
    ensures Encode([102, 111]) == "Zm8="
    ensures Encode([102, 111, 111]) == "Zm9v"
    ensures Encode([102, 111, 111, 98]) == "Zm9vYg=="
    ensures Encode([102, 111, 111, 98, 97]) == "Zm9vYmE="
    ensures Encode([102, 111, 111, 98, 97, 114]) == "Zm9vYmFy"
    ensures Encode([251, 255]) == "+/8="
  {
    var foo: seq<Byte> := [102, 111, 111];
    assert Encode(foo) == "Zm9v";
    assert [102, 111, 111, 98][3..] == [98];
    assert [102, 111, 111, 98, 97][3..] == [98, 97];
    assert [102, 111, 111, 98, 97, 114][3..] == [98, 97, 114];
    assert Encode([98, 97, 114]) == "YmFy";
  }

  function DecodeQuad(i0: Sextet, i1: Sextet, i2: Sextet, i3: Sextet): seq<Byte> {
    [i0 * 4 + i1 / 16, (i1 % 16) * 16 + i2 / 4, (i2 % 4) * 64 + i3]
  }

  /** Decodes one group of four characters; only the last group of the
      input (`last`) may end in padding. */
  function DecodeGroup(g: string, last: bool): Option<seq<Byte>>
    requires |g| == 4
  {
    var c0, c1, c2, c3 := CharIndex(g[0]), CharIndex(g[1]), CharIndex(g[2]), CharIndex(g[3]);
    if c0.None? || c1.None? then None
    else if c2.Some? && c3.Some? then Some(DecodeQuad(c0.value, c1.value, c2.value, c3.value))
    else if c2.Some? && last && g[3] == '=' then
      Some([c0.value * 4 + c1.value / 16, (c1.value % 16) * 16 + c2.value / 4])
    else if c2.None? && last && g[2] == '=' && g[3] == '=' then
      Some([c0.value * 4 + c1.value / 16])
    else None
  }

  function Decode(s: string): Option<seq<Byte>>
    decreases |s|
  {
    if |s| == 0 then Some([])
    else if |s| < 4 then None
    else
      match DecodeGroup(s[..4], |s| == 4)
      case None => None
      case Some(head) =>
        match Decode(s[4..])
        case None => None
        case Some(tail) => Some(head + tail)
  }

  /** The sextets of three bytes reassemble into those bytes. */
  lemma SplitJoin(b0: Byte, b1: Byte, b2: Byte)
    ensures DecodeQuad(b0 / 4, (b0 % 4) * 16 + b1 / 16, (b1 % 16) * 4 + b2 / 64, b2 % 64) == [b0, b1, b2]
  {
    var i1 := (b0 % 4) * 16 + b1 / 16;
    var i2 := (b1 % 16) * 4 + b2 / 64;
    assert i1 / 16 == b0 % 4 && i1 % 16 == b1 / 16;
    assert i2 / 4 == b1 % 16 && i2 % 4 == b2 / 64;
  }

  lemma DecodeEncodeTriple(b0: Byte, b1: Byte, b2: Byte, last: bool)
    ensures DecodeGroup(EncodeTriple(b0, b1, b2), last) == Some([b0, b1, b2])
  {
    var g := EncodeTriple(b0, b1, b2);
    CharIndexOfIndexChar(b0 / 4);
    CharIndexOfIndexChar((b0 % 4) * 16 + b1 / 16);
    CharIndexOfIndexChar((b1 % 16) * 4 + b2 / 64);
    CharIndexOfIndexChar(b2 % 64);
    SplitJoin(b0, b1, b2);
  }

  lemma DecodeEncodeOne(b0: Byte)
    ensures DecodeGroup([IndexChar(b0 / 4), IndexChar((b0 % 4) * 16), '=', '='], true) == Some([b0])
  {
    CharIndexOfIndexChar(b0 / 4);
    CharIndexOfIndexChar((b0 % 4) * 16);
    assert ((b0 % 4) * 16) / 16 == b0 % 4;
  }

  lemma DecodeEncodeTwo(b0: Byte, b1: Byte)
    ensures DecodeGroup([IndexChar(b0 / 4), IndexChar((b0 % 4) * 16 + b1 / 16), IndexChar((b1 % 16) * 4), '='], true)
         == Some([b0, b1])
  {
    var i1 := (b0 % 4) * 16 + b1 / 16;
    var i2 := (b1 % 16) * 4;
    CharIndexOfIndexChar(b0 / 4);
    CharIndexOfIndexChar(i1);
    CharIndexOfIndexChar(i2);
    assert i1 / 16 == b0 % 4 && i1 % 16 == b1 / 16;
    assert i2 / 4 == b1 % 16;
  }

  /** Decoding a string made of one group followed by more groups. */
  lemma DecodeCons(g: string, rest: string, head: seq<Byte>)
    requires |g| == 4
    requires DecodeGroup(g, |rest| == 0) == Some(head)
    ensures Decode(g + rest) == (match Decode(rest) case None => None case Some(tail) => Some(head + tail))
  {
    var s := g + rest;
    assert s[..4] == g;
    assert s[4..] == rest;
  }

  lemma DecodeEncodeShort(bs: seq<Byte>)
    requires 1 <= |bs| <= 2
    ensures Decode(Encode(bs)) == Some(bs)
  {
    if |bs| == 1 {
      DecodeEncodeSingle(bs[0]);
      assert bs == [bs[0]];
    } else {
      DecodeEncodePair(bs[0], bs[1]);
      assert bs == [bs[0], bs[1]];
    }
  }

  lemma DecodeEncodeSingle(b0: Byte)
    ensures Decode(Encode([b0])) == Some([b0])
  {
    var g := Encode([b0]);
    assert g == [IndexChar(b0 / 4), IndexChar((b0 % 4) * 16), '=', '='];
    DecodeEncodeOne(b0);
    assert g[..4] == g;
    assert g[4..] == [];
    assert Decode(g[4..]) == Some([]);
    assert [b0] + [] == [b0];
  }

  lemma DecodeEncodePair(b0: Byte, b1: Byte)
    ensures Decode(Encode([b0, b1])) == Some([b0, b1])
  {
    var g := Encode([b0, b1]);
    assert g == [IndexChar(b0 / 4), IndexChar((b0 % 4) * 16 + b1 / 16), IndexChar((b1 % 16) * 4), '='];
    DecodeEncodeTwo(b0, b1);
    assert g[..4] == g;
    assert g[4..] == [];
    assert Decode(g[4..]) == Some([]);
    assert [b0, b1] + [] == [b0, b1];
  }

  lemma EncodeStep(bs: seq<Byte>)
    requires |bs| >= 3
    ensures Encode(bs) == EncodeTriple(bs[0], bs[1], bs[2]) + Encode(bs[3..])
  {
  }

  lemma SplitThree<T>(s: seq<T>)
    requires |s| >= 3
    ensures [s[0], s[1], s[2]] + s[3..] == s
  {
  }

  /** Base64 loses nothing: decoding the encoding of any byte string gives it
      back. */
  lemma {:induction false} DecodeEncode(bs: seq<Byte>)
    ensures Decode(Encode(bs)) == Some(bs)
  {
    if |bs| == 0 {
    } else if |bs| <= 2 {
      DecodeEncodeShort(bs);
    } else {
      var head := EncodeTriple(bs[0], bs[1], bs[2]);
      var tail := Encode(bs[3..]);
      EncodeStep(bs);
      DecodeEncodeTriple(bs[0], bs[1], bs[2], |tail| == 0);
      DecodeCons(head, tail, [bs[0], bs[1], bs[2]]);
      DecodeEncode(bs[3..]);
      SplitThree(bs);
    }
  }
}

=== FILE: decimal.dfy ===
/** Decimal digit strings and the natural numbers they denote: the reading
    done by `parseInt(digits, 10)` and the writing done by a template literal
    `${n}` for a non-negative integer. */
module Decimal {

  predicate IsDigit(c: char) {
    '0' <= c <= '9'
  }

  predicate AllDigits(s: string) {
    forall k :: 0 <= k < |s| ==> IsDigit(s[k])
  }

  /** The canonical spelling of a number: no leading zero unless it is "0". */
  predicate Canonical(s: string) {
    && |s| > 0
    && AllDigits(s)
    && (s[0] == '0' ==> |s| == 1)
  }

  function DigitValue(c: char): (d: nat)
    requires IsDigit(c)
    ensures d < 10
  {
    c as int - '0' as int
  }

  function DigitChar(d: nat): (c: char)
    requires d < 10
    ensures IsDigit(c) && DigitValue(c) == d
  {
    ('0' as int + d) as char
  }

  /** End of the longest run of digits of `s` that starts at `i` (what a
      greedy `[0-9]*` consumes). */
  function DigitRun(s: string, i: nat): (j: nat)
    requires i <= |s|
    ensures i <= j <= |s|
    ensures AllDigits(s[i..j])
    ensures j < |s| ==> !IsDigit(s[j])
    decreases |s| - i
  {
    if i < |s| && IsDigit(s[i]) then
      var j := DigitRun(s, i + 1);
      assert s[i..j] == [s[i]] + s[i + 1..j];
      j
    else i
  }

  /** The digits of `s` from `i` up to a non-digit at `j` (or the end). */
  lemma {:induction false} DigitRunTo(s: string, i: nat, j: nat)
    requires i <= j <= |s|
    requires AllDigits(s[i..j])
    requires j < |s| ==> !IsDigit(s[j])
    ensures DigitRun(s, i) == j
    decreases j - i
  {
    if i < j {
      assert s[i..j][0] == s[i];
      assert s[i + 1..j] == s[i..j][1..];
      DigitRunTo(s, i + 1, j);
    }
  }

  /** The value of a digit string, most significant digit first ("" is 0). */
  function Value(s: string): nat
    requires AllDigits(s)
  {
    if |s| == 0 then 0 else Value(s[..|s| - 1]) * 10 + DigitValue(s[|s| - 1])
  }

  function Pow10(n: nat): (p: nat)
    ensures p >= 1
  {
    if n == 0 then 1 else 10 * Pow10(n - 1)
  }

  /** Writes `n` in base ten. */
  function FromNat(n: nat): (s: string)
    ensures Canonical(s)
    ensures Value(s) == n
  {
    if n < 10 then [DigitChar(n)]
    else
      var init := FromNat(n / 10);
      var s := init + [DigitChar(n % 10)];
      assert s[..|s| - 1] == init;
      s
  }

  /** A digit string is worth less than ten to the power of its length. */
  lemma {:induction false} ValueBound(s: string)
    requires AllDigits(s)
    ensures Value(s) < Pow10(|s|)
  {
    if |s| > 0 {
      ValueBound(s[..|s| - 1]);
    }
  }

  /** Reading a concatenation: the digits of `b` shift `a` left by |b| places. */
  lemma {:induction false} ValueAppend(a: string, b: string)
    requires AllDigits(a) && AllDigits(b)
    ensures AllDigits(a + b)
    ensures Value(a + b) == Value(a) * Pow10(|b|) + Value(b)
  {
    if |b| == 0 {
      assert a + b == a;
    } else {
      var b' := b[..|b| - 1];
      var d := DigitValue(b[|b| - 1]);
      assert (a + b)[..|a + b| - 1] == a + b';
      assert (a + b)[|a + b| - 1] == b[|b| - 1];
      ValueAppend(a, b');
      assert Value(a + b) == Value(a + b') * 10 + d;
      ShiftLeft(Value(a), Pow10(|b'|), Value(b'), d);
    }
  }

  lemma ShiftLeft(x: int, p: int, y: int, d: int)
    ensures (x * p + y) * 10 + d == x * (10 * p) + (y * 10 + d)
  {
    calc {
      (x * p + y) * 10 + d;
      x * p * 10 + y * 10 + d;
      x * (10 * p) + (y * 10 + d);
    }
  }

  /** A canonical string of length at least two does not start with '0', so
      its value needs all of its digits. */
  lemma {:induction false} CanonicalLowerBound(s: string)
    requires Canonical(s) && |s| >= 2
    ensures Value(s) >= Pow10(|s| - 1)
  {
    if |s| == 2 {
      assert s[..1] == [s[0]];
    } else {
      var init := s[..|s| - 1];
      assert init[0] == s[0];
      CanonicalLowerBound(init);
    }
  }

  /** Formatting is the inverse of reading on canonical spellings, so every
      natural number has exactly one canonical spelling. */
  lemma {:induction false} FromValue(s: string)
    requires Canonical(s)
    ensures FromNat(Value(s)) == s
  {
    if |s| == 1 {
    } else {
      var init := s[..|s| - 1];
      assert init[0] == s[0];
      CanonicalLowerBound(s);
      FromValue(init);
      assert Value(s) / 10 == Value(init);
      assert Value(s) % 10 == DigitValue(s[|s| - 1]);
      assert s == init + [s[|s| - 1]];
    }
  }
}

=== FILE: js_number.dfy ===
/** `parseFloat` on the `data` string of a reply, and `Math.floor` of the
    result. Numbers are exact rationals here: the value of the decimal text
    as written, not its nearest IEEE double. */
module JsNumber {
  import opened Wrappers
  import opened Decimal
  import opened JsText

  /** The decimal literal found at the front of a string:
      [sign] digits [. digits] [(e|E) [sign] digits]. */
  datatype Literal = Literal(
    negative: bool,
    intDigits: string,
    fracDigits: string,
    expNegative: bool,
    expDigits: string)
  {
    predicate Valid() {
      && AllDigits(intDigits) && AllDigits(fracDigits) && AllDigits(expDigits)
      && |intDigits| + |fracDigits| > 0
    }
  }

  /** An optional '+' or '-' at `i`: whether it was '-', and where the
      digits start. */
  function SignAt(s: string, i: nat): (r: (bool, nat))
    requires i <= |s|
    ensures i <= r.1 <= i + 1 && r.1 <= |s|
  {
    if i < |s| && (s[i] == '-' || s[i] == '+') then (s[i] == '-', i + 1) else (false, i)
  }

  /** The fraction digits after a '.' at `i` (none when there is no '.'),
      and where the fraction ends. */
  function FractionAt(s: string, i: nat): (r: (string, nat))
    requires i <= |s|
    ensures i <= r.1 <= |s| && AllDigits(r.0)
  {
    if i < |s| && s[i] == '.' then
      var j := DigitRun(s, i + 1);
      (s[i + 1..j], j)
    else ("", i)
  }

  /** An exponent at `i`: 'e' or 'E', an optional sign, at least one digit.
      Without a digit nothing is taken and the exponent is zero. */
  function ExponentAt(s: string, i: nat): (r: (bool, string))
    requires i <= |s|
    ensures AllDigits(r.1)
  {
    if i < |s| && (s[i] == 'e' || s[i] == 'E') then
      var (neg, j) := SignAt(s, i + 1);
      var k := DigitRun(s, j);
      if k > j then (neg, s[j..k]) else (false, "")
    else (false, "")
  }

  /** The longest prefix of `s`, after leading whitespace, that spells a
      decimal literal; None where `parseFloat` gives NaN. */
  function ParseFloat(s: string): (r: Option<Literal>)
    ensures r.Some? ==> r.value.Valid()
  {
    var i := LeadingWhitespace(s);
    var (neg, m0) := SignAt(s, i);
    var m1 := DigitRun(s, m0);
    var (frac, k) := FractionAt(s, m1);
    if m1 == m0 && |frac| == 0 then None
    else
      var (xNeg, xDigits) := ExponentAt(s, k);
      Some(Literal(neg, s[m0..m1], frac, xNeg, xDigits))
  }

  /** The exact value of a literal. */
  function LiteralValue(l: Literal): real
    requires l.Valid()
  {
    var mantissa := Value(l.intDigits + l.fracDigits) as real / Pow10(|l.fracDigits|) as real;
    var scale := if l.expNegative then 1.0 / Pow10(Value(l.expDigits)) as real
                 else Pow10(Value(l.expDigits)) as real;
    var magnitude := mantissa * scale;
    if l.negative then -magnitude else magnitude
  }

  /** `Math.floor(parseFloat(s))`, None standing for NaN. */
  function FloorOf(s: string): Option<int> {
    match ParseFloat(s)
    case None => None
    case Some(l) => Some(LiteralValue(l).Floor)
  }

  lemma FloorOfQuotient(v: int, f: nat, p: nat)
    requires 0 < p && f < p
    ensures ((v * p + f) as real / p as real).Floor == v
  {
    var r := (v * p + f) as real / p as real;
    assert r * p as real == (v * p + f) as real;
    assert (v * p + f) as real == v as real * p as real + f as real;
    assert r == v as real + f as real / p as real;
    assert 0.0 <= f as real / p as real < 1.0;
  }

  lemma ParseFixedPoint(ip: string, fp: string)
    requires |ip| > 0 && AllDigits(ip) && AllDigits(fp)
    ensures ParseFloat(ip + "." + fp) == Some(Literal(false, ip, fp, false, ""))
  {
    var s := ip + "." + fp;
    assert s[0] == ip[0];
    assert LeadingWhitespace(s) == 0;
    assert SignAt(s, 0) == (false, 0);
    assert s[0..|ip|] == ip;
    DigitRunTo(s, 0, |ip|);
    assert s[|ip| + 1..|s|] == fp;
    DigitRunTo(s, |ip| + 1, |s|);
    assert FractionAt(s, |ip|) == (fp, |s|);
  }

  /** The value of a literal with no sign and no exponent is its digits
      read as a whole number, scaled down by its fraction length. */
  lemma PlainValue(l: Literal)
    requires l.Valid() && !l.negative && !l.expNegative && l.expDigits == ""
    ensures LiteralValue(l) == Value(l.intDigits + l.fracDigits) as real / Pow10(|l.fracDigits|) as real
  {
    assert Pow10(Value(l.expDigits)) == 1;
  }

  /** Digits followed by fraction digits, read as a whole number and
      scaled down by the fraction length, floor to the leading digits. */
  lemma ScaledFloor(ip: string, fp: string)
    requires AllDigits(ip) && AllDigits(fp)
    ensures AllDigits(ip + fp)
    ensures (Value(ip + fp) as real / Pow10(|fp|) as real).Floor == Value(ip)
  {
    ValueAppend(ip, fp);
    ValueBound(fp);
    FloorOfQuotient(Value(ip), Value(fp), Pow10(|fp|));
  }

  /** The floor of a literal with no sign and no exponent. */
  lemma PlainFloor(s: string, l: Literal)
    requires ParseFloat(s) == Some(l)
    requires !l.negative && !l.expNegative && l.expDigits == ""
    ensures FloorOf(s) == Some((Value(l.intDigits + l.fracDigits) as real / Pow10(|l.fracDigits|) as real).Floor)
  {
    PlainValue(l);
  }

  /** A plain fixed-point reading "<digits>.<digits>" (how the player
      prints its playback time) floors to its integer part. */
  lemma FixedPointFloor(ip: string, fp: string)
    requires |ip| > 0 && AllDigits(ip) && AllDigits(fp)
    ensures FloorOf(ip + "." + fp) == Some(Value(ip))
  {
    var l := Literal(false, ip, fp, false, "");
    ParseFixedPoint(ip, fp);
    PlainFloor(ip + "." + fp, l);
    ScaledFloor(ip, fp);
  }

  lemma ParseInteger(ip: string)
    requires |ip| > 0 && AllDigits(ip)
    ensures ParseFloat(ip) == Some(Literal(false, ip, "", false, ""))
  {
    assert LeadingWhitespace(ip) == 0;
    assert SignAt(ip, 0) == (false, 0);
    assert ip[0..|ip|] == ip;
    DigitRunTo(ip, 0, |ip|);
  }

  /** A plain integer reading floors to itself. */
  lemma IntegerFloor(ip: string)
    requires |ip| > 0 && AllDigits(ip)
    ensures FloorOf(ip) == Some(Value(ip))
  {
    ParseInteger(ip);
    PlainFloor(ip, Literal(false, ip, "", false, ""));
    ScaledFloor(ip, "");
    assert ip + "" == ip;
  }

  /** A literal written with a minus sign is never above zero, so its floor
      is never a position the poller reports. */
  lemma NegativeNotPositive(s: string)
    requires ParseFloat(s).Some? && ParseFloat(s).value.negative
    ensures FloorOf(s).value <= 0
  {
    var l := ParseFloat(s).value;
    var p := Pow10(|l.fracDigits|) as real;
    var mantissa := Value(l.intDigits + l.fracDigits) as real / p;
    assert mantissa >= 0.0;
    var e := Pow10(Value(l.expDigits)) as real;
    assert 1.0 / e > 0.0;
  }
}

=== FILE: js_text.dfy ===
/** The JavaScript string operations the poller relies on:
    `String.prototype.trim` and `String.prototype.split('\n')`. */
module JsText {

  /** LineTerminator of ECMAScript: the characters a regular expression's
      `.` does not match. */
  predicate IsLineTerminator(c: char) {
    c == '\n' || c == '\r' || c == '\U{2028}' || c == '\U{2029}'
  }

  /** WhiteSpace and LineTerminator of ECMAScript: the characters `trim`
      removes and `parseFloat` skips (the Zs category spelled out). */
  predicate IsJsWhitespace(c: char) {
    || c == '\t' || c == '\U{000B}' || c == '\U{000C}' || c == ' ' || c == '\U{00A0}'
    || c == '\U{FEFF}' || c == '\U{1680}' || ('\U{2000}' <= c <= '\U{200A}')
    || c == '\U{202F}' || c == '\U{205F}' || c == '\U{3000}'
    || IsLineTerminator(c)
  }

  predicate AllWhitespace(s: string) {
    forall k :: 0 <= k < |s| ==> IsJsWhitespace(s[k])
  }

  /** Length of the leading run of whitespace. */
  function LeadingWhitespace(s: string): (n: nat)
    ensures n <= |s|
    ensures AllWhitespace(s[..n])
    ensures n < |s| ==> !IsJsWhitespace(s[n])
  {
    if |s| == 0 || !IsJsWhitespace(s[0]) then 0
    else
      var n := 1 + LeadingWhitespace(s[1..]);
      assert s[..n] == [s[0]] + s[1..][..n - 1];
      n
  }

  /** Length of the trailing run of whitespace. */
  function TrailingWhitespace(s: string): (n: nat)
    ensures n <= |s|
    ensures AllWhitespace(s[|s| - n..])
    ensures n < |s| ==> !IsJsWhitespace(s[|s| - n - 1])
  {
    if |s| == 0 || !IsJsWhitespace(s[|s| - 1]) then 0
    else
      var init := s[..|s| - 1];
      var n := 1 + TrailingWhitespace(init);
      assert s[|s| - n..] == init[|init| - (n - 1)..] + [s[|s| - 1]];
      n
  }

  /** `s.trim()`: `s` without its leading and trailing whitespace. The result
      is the slice of `s` that starts and ends with a non-whitespace
      character, and everything cut away is whitespace. */
  function Trim(s: string): (t: string)
    ensures exists a, b :: 0 <= a <= b <= |s| && t == s[a..b]
              && AllWhitespace(s[..a]) && AllWhitespace(s[b..])
    ensures |t| > 0 ==> !IsJsWhitespace(t[0]) && !IsJsWhitespace(t[|t| - 1])
  {
    var a := LeadingWhitespace(s);
    if a == |s| then
      assert AllWhitespace(s[|s|..]);
      s[a..a]
    else
      var rest := s[a..];
      var m := TrailingWhitespace(rest);
      var b := |s| - m;
      assert rest[|rest| - m..] == s[b..];
      assert m < |rest|;
      s[a..b]
  }

  /** A line is skipped by the poller when `line.trim()` is falsy, which
      happens exactly when every character of it is whitespace. */
  lemma TrimEmptyIffBlank(s: string)
    ensures Trim(s) == "" <==> AllWhitespace(s)
  {
    var t := Trim(s);
    var a, b :| 0 <= a <= b <= |s| && t == s[a..b] && AllWhitespace(s[..a]) && AllWhitespace(s[b..]);
    if t == "" {
      forall k | 0 <= k < |s| ensures IsJsWhitespace(s[k]) {
        if k < a { assert s[..a][k] == s[k]; } else { assert s[b..][k - b] == s[k]; }
      }
    } else {
      assert !IsJsWhitespace(s[a]);
    }
  }

  /** Strings with no line feed. */
  predicate NoNewline(s: string) {
    forall k :: 0 <= k < |s| ==> s[k] != '\n'
  }

  /** Each line followed by its line feed, concatenated. */
  function Unlines(ls: seq<string>): string {
    if |ls| == 0 then "" else ls[0] + "\n" + Unlines(ls[1..])
  }

  /** `s.split('\n')`: the pieces between line feeds, always at least one. */
  function Split(s: string): (r: seq<string>)
    ensures |r| >= 1
  {
    if |s| == 0 then [""]
    else
      var rest := Split(s[1..]);
      if s[0] == '\n' then [""] + rest else [[s[0]] + rest[0]] + rest[1..]
  }

  /** The pieces of a split contain no line feed. */
  lemma {:induction false} SplitPiecesNoNewline(s: string)
    ensures forall k :: 0 <= k < |Split(s)| ==> NoNewline(Split(s)[k])
  {
    if |s| > 0 {
      SplitPiecesNoNewline(s[1..]);
      var rest := Split(s[1..]);
      var r := Split(s);
      if s[0] != '\n' {
        forall k | 0 <= k < |r| ensures NoNewline(r[k]) {
          if k > 0 { assert r[k] == rest[k]; }
        }
      }
    }
  }

  /** The complete lines of a split (all but the last piece), each with its
      line feed, followed by the last piece give the input back. */
  lemma {:induction false} SplitRecombines(s: string)
    ensures Unlines(Split(s)[..|Split(s)| - 1]) + Split(s)[|Split(s)| - 1] == s
  {
    if |s| > 0 {
      SplitRecombines(s[1..]);
      var rest := Split(s[1..]);
      var r := Split(s);
      if s[0] == '\n' {
        assert r[1..] == rest;
        assert r[..|r| - 1] == [""] + rest[..|rest| - 1];
        assert r[..|r| - 1][1..] == rest[..|rest| - 1];
        assert s == "\n" + s[1..];
      } else {
        var first := [s[0]] + rest[0];
        if |rest| == 1 {
          assert r == [first];
          assert s == first;
        } else {
          RecombinesStep(s, rest, r, first);
        }
      }
    }
  }

  lemma RecombinesStep(s: string, rest: seq<string>, r: seq<string>, first: string)
    requires |s| > 0 && |rest| >= 2
    requires first == [s[0]] + rest[0]
    requires r == [first] + rest[1..]
    requires Unlines(rest[..|rest| - 1]) + rest[|rest| - 1] == s[1..]
    ensures Unlines(r[..|r| - 1]) + r[|r| - 1] == s
  {
    assert r[..|r| - 1] == [first] + rest[1..|rest| - 1];
    assert r[..|r| - 1][1..] == rest[1..|rest| - 1];
    assert rest[..|rest| - 1] == [rest[0]] + rest[1..|rest| - 1];
    assert rest[..|rest| - 1][1..] == rest[1..|rest| - 1];
    assert Unlines(rest[..|rest| - 1]) == rest[0] + "\n" + Unlines(rest[1..|rest| - 1]);
    assert s == [s[0]] + s[1..];
  }

  /** The split is the only way to cut a string into newline-free complete
      lines and a newline-free remainder. */
  lemma {:induction false} SplitUnique(lines: seq<string>, tail: string, s: string)
    requires forall k :: 0 <= k < |lines| ==> NoNewline(lines[k])
    requires NoNewline(tail)
    requires Unlines(lines) + tail == s
    ensures Split(s) == lines + [tail]
    decreases |s|
  {
    if |lines| == 0 {
      assert s == tail;
      SplitOfNoNewline(tail);
    } else {
      var l := lines[0];
      if |l| == 0 {
        assert s == "\n" + (Unlines(lines[1..]) + tail);
        SplitUnique(lines[1..], tail, s[1..]);
        assert [""] + (lines[1..] + [tail]) == lines + [tail];
      } else {
        var lines' := [l[1..]] + lines[1..];
        assert lines'[1..] == lines[1..];
        assert s == [l[0]] + (Unlines(lines') + tail);
        forall k | 0 <= k < |lines'| ensures NoNewline(lines'[k]) {
          if k == 0 {
            assert forall j :: 0 <= j < |l[1..]| ==> l[1..][j] == l[j + 1];
          } else {
            assert lines'[k] == lines[k];
          }
        }
        SplitUnique(lines', tail, s[1..]);
        assert [l[0]] + l[1..] == l;
        assert lines + [tail] == [l] + (lines'[1..] + [tail]);
      }
    }
  }

  lemma {:induction false} SplitOfNoNewline(s: string)
    requires NoNewline(s)
    ensures Split(s) == [s]
  {
    if |s| > 0 {
      SplitOfNoNewline(s[1..]);
      assert [s[0]] + s[1..] == s;
    }
  }
}

=== FILE: mpv_api.dfy ===
/** The polling client `MpvApi` of src/mpv-api.ts as a state machine. Each
    event the Node.js event loop can deliver (a timer firing, a socket
    event, a call from the owner) is a transition function over an
    immutable record; timers are counters and the socket's writes and the
    position callback are sequences that only grow. */
module MpvApi {
  import opened Wrappers
  import opened Decimal
  import opened JsText
  import opened JsNumber

  /** `this.client`: none before the 500 ms delay, then a socket that is
      connecting, connected, or closed (by its peer, an error, or
      `stopPolling`'s end/destroy). */
  datatype Socket = NoSocket | Connecting | Connected | Closed

  /** The 500 ms timer `startPolling` arms before the first connection. */
  datatype ConnectTimer = Unarmed | Armed | Fired

  /** A reply line after `JSON.parse`, reduced to the three fields the poller
      reads: `requestId` is Some(n) when `request_id` is the number n, and
      `error` and `data` are Some when they are strings. */
  datatype Response = Response(requestId: Option<int>, error: Option<string>, data: Option<string>)

  /** The client's state. `buffer` and `requestId` are the variables the
      socket handlers share; `pendingTicks` counts the 3 s timers scheduled
      and not yet fired; `outbox` holds every message given to
      `client.write`, and `reported` every position given to the callback. */
  datatype Poller = Poller(
    isPolling: bool,
    connectTimer: ConnectTimer,
    socket: Socket,
    buffer: string,
    requestId: nat,
    pendingTicks: nat,
    outbox: seq<string>,
    reported: seq<int>)

  /** A freshly constructed client. */
  function Init(): Poller {
    Poller(false, Unarmed, NoSocket, "", 1, 0, [], [])
  }

  /** The JSON text of the query up to its id, and what follows the id. */
  const CommandPrefix := "{\"command\":[\"" + "get_property_string" + "\",\"playback-time\"]" + ",\"request_id\":"
  const CommandSuffix := "}\n"

  /** The query `JSON.stringify` writes for a request id, with its line
      feed. */
  function Command(id: nat): string {
    CommandPrefix + FromNat(id) + CommandSuffix
  }

  /** Reads the request id back out of a query; None for anything that is
      not a query. */
  function CommandId(msg: string): Option<nat> {
    var lo, hi := |CommandPrefix|, |msg| - |CommandSuffix|;
    if lo <= hi && msg[..lo] == CommandPrefix && msg[hi..] == CommandSuffix && Canonical(msg[lo..hi])
    then Some(Value(msg[lo..hi]))
    else None
  }

  /** Every query carries its id, and only it. */
  lemma CommandRoundTrip(id: nat)
    ensures CommandId(Command(id)) == Some(id)
  {
    var msg := Command(id);
    var digits := FromNat(id);
    assert msg[..|CommandPrefix|] == CommandPrefix;
    assert msg[|msg| - |CommandSuffix|..] == CommandSuffix;
    assert msg[|CommandPrefix|..|msg| - |CommandSuffix|] == digits;
  }

  /** A query is one line: its only line feed is its last character. */
  lemma CommandIsOneLine(id: nat)
    ensures |Command(id)| > 0 && Command(id)[|Command(id)| - 1] == '\n'
    ensures NoNewline(Command(id)[..|Command(id)| - 1])
  {
    var msg := Command(id);
    var digits := FromNat(id);
    assert msg[..|msg| - 1] == CommandPrefix + digits + "}";
    forall k | 0 <= k < |msg| - 1 ensures msg[k] != '\n' {
      if k < |CommandPrefix| {
        assert msg[k] == CommandPrefix[k];
        PrefixIsOneLine();
      } else if k < |CommandPrefix| + |digits| {
        assert msg[k] == digits[k - |CommandPrefix|];
        assert IsDigit(digits[k - |CommandPrefix|]);
      } else {
        assert msg[k] == '}';
      }
    }
  }

  lemma PrefixIsOneLine()
    ensures NoNewline(CommandPrefix)
  {
    var a, b, c, d := "{\"command\":[\"", "get_property_string", "\",\"playback-time\"]", ",\"request_id\":";
    assert NoNewline(a) && NoNewline(b) && NoNewline(c) && NoNewline(d);
    assert CommandPrefix == a + b + c + d;
    forall k | 0 <= k < |CommandPrefix| ensures CommandPrefix[k] != '\n' {
      if k < |a| {
        assert CommandPrefix[k] == a[k];
      } else if k < |a| + |b| {
        assert CommandPrefix[k] == b[k - |a|];
      } else if k < |a| + |b| + |c| {
        assert CommandPrefix[k] == c[k - |a| - |b|];
      } else {
        assert CommandPrefix[k] == d[k - |a| - |b| - |c|];
      }
    }
  }

  /** `sendCommand(id)`: a write happens only while a socket exists and the
      client is polling. */
  function SendCommand(p: Poller, id: nat): (q: Poller)
    ensures q.outbox == p.outbox || q.outbox == p.outbox + [Command(id)]
    ensures q.outbox != p.outbox <==> p.socket != NoSocket && p.isPolling
    ensures q == p.(outbox := q.outbox)
  {
    if p.socket != NoSocket && p.isPolling then p.(outbox := p.outbox + [Command(id)]) else p
  }

  /** `processResponse(line, id)` after `JSON.parse`: the position handed to
      the callback, if any. */
  function Accept(resp: Option<Response>, id: nat): (r: Option<int>)
    ensures r.Some? ==> r.value > 0
  {
    match resp
    case None => None
    case Some(rsp) =>
      if rsp.requestId == Some(id) && rsp.error == Some("success") && rsp.data.Some? && rsp.data.value != "" then
        match FloorOf(rsp.data.value)
        case Some(n) => if n > 0 then Some(n) else None
        case None => None
      else None
  }

  /** Only a reply to the current query, with status "success" and a
      non-empty value, can report; what it reports is the floor of that
      value. */
  lemma AcceptOnlyCurrent(resp: Option<Response>, id: nat)
    requires Accept(resp, id).Some?
    ensures resp.Some? && resp.value.requestId == Some(id) && resp.value.error == Some("success")
    ensures resp.value.data.Some? && resp.value.data.value != ""
    ensures FloorOf(resp.value.data.value) == Accept(resp, id)
  {
  }

  /** A reply in the player's own format "<digits>.<digits>" reports its
      integer part, unless that is 0. */
  lemma AcceptFixedPoint(id: nat, ip: string, fp: string)
    requires |ip| > 0 && AllDigits(ip) && AllDigits(fp)
    ensures Accept(Some(Response(Some(id), Some("success"), Some(ip + "." + fp))), id)
         == (if Value(ip) > 0 then Some(Value(ip)) else None)
  {
    FixedPointFloor(ip, fp);
  }

  /** A value written with a minus sign never reports, whatever its
      magnitude. */
  lemma AcceptRejectsNegative(resp: Option<Response>, id: nat)
    requires resp.Some? && resp.value.data.Some?
    requires ParseFloat(resp.value.data.value).Some? && ParseFloat(resp.value.data.value).value.negative
    ensures Accept(resp, id) == None
  {
    NegativeNotPositive(resp.value.data.value);
  }

  /** One complete line: a line whose `trim()` is empty is not looked
      at; any other is parsed and processed. */
  function LineReport(line: string, id: nat, decode: string -> Option<Response>): (r: Option<int>)
    ensures r.Some? ==> r.value > 0 && Accept(decode(line), id) == r
  {
    if Trim(line) == "" then None else Accept(decode(line), id)
  }

  /** Every line of `lines` that reports has its position in `r`. */
  predicate ReportsAll(lines: seq<string>, id: nat, decode: string -> Option<Response>, r: seq<int>) {
    forall k :: 0 <= k < |lines| && LineReport(lines[k], id, decode).Some? ==> LineReport(lines[k], id, decode).value in r
  }

  /** The positions reported for a run of complete lines, in order: every
      line that reports contributes its position, and nothing else does. */
  function ReportsOf(lines: seq<string>, id: nat, decode: string -> Option<Response>): (r: seq<int>)
    ensures |r| <= |lines|
    ensures forall k :: 0 <= k < |r| ==> r[k] > 0
    ensures ReportsAll(lines, id, decode, r)
  {
    if |lines| == 0 then []
    else
      var rest := ReportsOf(lines[1..], id, decode);
      var head := LineReport(lines[0], id, decode);
      ReportsAllCons(lines, id, decode, rest);
      if head.Some? then [head.value] + rest else rest
  }

  /** A report covering the lines after the first, with the first line's
      report (if any) in front, covers all of them. */
  lemma ReportsAllCons(lines: seq<string>, id: nat, decode: string -> Option<Response>, rest: seq<int>)
    requires |lines| > 0 && ReportsAll(lines[1..], id, decode, rest)
    ensures var head := LineReport(lines[0], id, decode);
            ReportsAll(lines, id, decode, if head.Some? then [head.value] + rest else rest)
  {
    var head := LineReport(lines[0], id, decode);
    var r := if head.Some? then [head.value] + rest else rest;
    forall k | 0 <= k < |lines| && LineReport(lines[k], id, decode).Some?
      ensures LineReport(lines[k], id, decode).value in r
    {
      if k > 0 {
        assert lines[1..][k - 1] == lines[k];
      }
    }
  }

  /** Reports of consecutive runs of lines are the reports of each run, in
      order. */
  lemma {:induction false} ReportsOfAppend(a: seq<string>, b: seq<string>, id: nat, decode: string -> Option<Response>)
    ensures ReportsOf(a + b, id, decode) == ReportsOf(a, id, decode) + ReportsOf(b, id, decode)
  {
    if |a| == 0 {
      assert a + b == b;
    } else {
      assert (a + b)[0] == a[0];
      assert (a + b)[1..] == a[1..] + b;
      ReportsOfAppend(a[1..], b, id, decode);
    }
  }

  /** Each reported position comes from a non-blank line that is an
      accepted reply to the current query. */
  lemma {:induction false} ReportsComeFromAcceptedLines(lines: seq<string>, id: nat, decode: string -> Option<Response>, x: int)
    requires x in ReportsOf(lines, id, decode)
    ensures exists k :: 0 <= k < |lines| && !AllWhitespace(lines[k]) && Accept(decode(lines[k]), id) == Some(x)
  {
    if |lines| > 0 {
      var rest := ReportsOf(lines[1..], id, decode);
      TrimEmptyIffBlank(lines[0]);
      if x in rest {
        ReportsComeFromAcceptedLines(lines[1..], id, decode, x);
        var k :| 0 <= k < |lines[1..]| && !AllWhitespace(lines[1..][k]) && Accept(decode(lines[1..][k]), id) == Some(x);
        assert lines[1..][k] == lines[k + 1];
      }
    }
  }

  /** Conversely, every non-blank line that is an accepted reply to the
      current query has its position reported. */
  lemma AcceptedLineReports(lines: seq<string>, id: nat, decode: string -> Option<Response>, k: nat, n: int)
    requires k < |lines| && !AllWhitespace(lines[k]) && Accept(decode(lines[k]), id) == Some(n)
    ensures n in ReportsOf(lines, id, decode)
  {
    TrimEmptyIffBlank(lines[k]);
    assert LineReport(lines[k], id, decode) == Some(n);
  }

  /** Replies that are not accepted (stale ids, errors, empty data, NaN or
      non-positive values) add no report. */
  lemma {:induction false} UnacceptedReportNothing(lines: seq<string>, id: nat, decode: string -> Option<Response>)
    requires forall k :: 0 <= k < |lines| ==> Accept(decode(lines[k]), id).None?
    ensures ReportsOf(lines, id, decode) == []
  {
    if |lines| > 0 {
      UnacceptedReportNothing(lines[1..], id, decode);
    }
  }

  /** The complete lines of a read buffer and the fragment kept for the
      next read: `buffer.split('\n')` and its `pop()`. */
  function CompleteLines(s: string): seq<string> {
    var pieces := Split(s);
    pieces[..|pieces| - 1]
  }

  function Fragment(s: string): string {
    var pieces := Split(s);
    pieces[|pieces| - 1]
  }

  /** Framing keeps every character: the complete lines, each with its line
      feed, followed by the kept fragment, are the buffer; no piece holds a
      line feed. */
  lemma FramingPreservesContent(s: string)
    ensures Unlines(CompleteLines(s)) + Fragment(s) == s
    ensures NoNewline(Fragment(s))
    ensures forall k :: 0 <= k < |CompleteLines(s)| ==> NoNewline(CompleteLines(s)[k])
  {
    SplitRecombines(s);
    SplitPiecesNoNewline(s);
    var pieces := Split(s);
    forall k | 0 <= k < |CompleteLines(s)| ensures NoNewline(CompleteLines(s)[k]) {
      assert CompleteLines(s)[k] == pieces[k];
    }
  }

  /** A data event (`client.on('data')`): ignored when not polling;
      otherwise the chunk is appended to the buffer, each complete
      non-blank line is processed against the current id, the incomplete
      fragment is kept, and one more 3 s timer is scheduled. */
  function OnData(p: Poller, chunk: string, decode: string -> Option<Response>): (q: Poller)
    requires p.socket == Connected
    ensures !p.isPolling ==> q == p
    ensures p.isPolling ==> q.pendingTicks == p.pendingTicks + 1 && NoNewline(q.buffer)
    ensures p.isPolling ==> Unlines(CompleteLines(p.buffer + chunk)) + q.buffer == p.buffer + chunk
    ensures q.outbox == p.outbox && q.requestId == p.requestId && q.isPolling == p.isPolling && q.socket == p.socket
    ensures q.connectTimer == p.connectTimer
    ensures |p.reported| <= |q.reported| && q.reported[..|p.reported|] == p.reported
  {
    if !p.isPolling then p
    else
      var all := p.buffer + chunk;
      FramingPreservesContent(all);
      var q := p.(buffer := Fragment(all),
                  reported := p.reported + ReportsOf(CompleteLines(all), p.requestId, decode),
                  pendingTicks := p.pendingTicks + 1);
      assert q.reported[..|p.reported|] == p.reported;
      q
  }

  /** A 3 s timer firing: `requestId++`, then `sendCommand(requestId)`. */
  function OnTick(p: Poller): (q: Poller)
    requires p.pendingTicks > 0
    ensures q.requestId == p.requestId + 1
    ensures q.pendingTicks == p.pendingTicks - 1
    ensures q.outbox == p.outbox || q.outbox == p.outbox + [Command(q.requestId)]
    ensures q.outbox != p.outbox <==> p.isPolling && p.socket != NoSocket
    ensures q.(requestId := p.requestId, pendingTicks := p.pendingTicks, outbox := p.outbox) == p
  {
    SendCommand(p.(pendingTicks := p.pendingTicks - 1, requestId := p.requestId + 1), p.requestId + 1)
  }

  /** `startPolling`: set the flag and arm the 500 ms connect timer. */
  function StartPolling(p: Poller): (q: Poller)
    requires p.connectTimer == Unarmed
    ensures q.isPolling && q.connectTimer == Armed
    ensures q.(isPolling := p.isPolling, connectTimer := p.connectTimer) == p
  {
    p.(isPolling := true, connectTimer := Armed)
  }

  /** The 500 ms timer firing (`connectAndPoll`): a socket is opened with a
      fresh buffer and `requestId` 1. The timer is not cancelled by
      `stopPolling`, so this happens even after a stop. */
  function OnConnectDelay(p: Poller): (q: Poller)
    requires p.connectTimer == Armed
    ensures q.socket == Connecting && q.connectTimer == Fired
    ensures q.buffer == "" && q.requestId == 1
    ensures q.(connectTimer := p.connectTimer, socket := p.socket, buffer := p.buffer, requestId := p.requestId) == p
  {
    p.(connectTimer := Fired, socket := Connecting, buffer := "", requestId := 1)
  }

  /** The socket's `connect` event: the first query goes out. */
  function OnConnect(p: Poller): (q: Poller)
    requires p.socket == Connecting
    ensures q.socket == Connected && q.requestId == p.requestId
    ensures q.outbox == (if p.isPolling then p.outbox + [Command(p.requestId)] else p.outbox)
    ensures q.(socket := p.socket, outbox := p.outbox) == p
  {
    SendCommand(p.(socket := Connected), p.requestId)
  }

  /** The socket's `error` or `close` event: the handlers only log, and the
      socket delivers nothing more. */
  function OnClose(p: Poller): (q: Poller)
    requires p.socket == Connecting || p.socket == Connected
    ensures q.socket == Closed
    ensures q.(socket := p.socket) == p
  {
    p.(socket := Closed)
  }

  /** `stopPolling`: clear the flag and end the socket if there is one.
      Timers already scheduled are left alone. */
  function StopPolling(p: Poller): (q: Poller)
    ensures !q.isPolling
    ensures q.socket == (if p.socket == NoSocket then NoSocket else Closed)
    ensures q.(isPolling := p.isPolling, socket := p.socket) == p
  {
    p.(isPolling := false, socket := if p.socket == NoSocket then NoSocket else Closed)
  }

  /** Stopping twice is stopping once. */
  lemma StopIdempotent(p: Poller)
    ensures StopPolling(StopPolling(p)) == StopPolling(p)
  {
  }

  /** The events the event loop can deliver. */
  datatype Event =
    | Start
    | ConnectDelayElapsed
    | SocketConnect
    | SocketData(chunk: string)
    | PollDelayElapsed
    | SocketClose
    | Stop

  /** Whether an event can happen in a state: a timer fires only if it is
      scheduled, a socket event needs a socket in the right phase. */
  predicate Enabled(p: Poller, e: Event) {
    match e
    case Start => p.connectTimer == Unarmed
    case ConnectDelayElapsed => p.connectTimer == Armed
    case SocketConnect => p.socket == Connecting
    case SocketData(_) => p.socket == Connected
    case PollDelayElapsed => p.pendingTicks > 0
    case SocketClose => p.socket == Connecting || p.socket == Connected
    case Stop => true
  }

  /** One event; an event that cannot happen leaves the state alone. */
  function Step(p: Poller, e: Event, decode: string -> Option<Response>): Poller {
    if !Enabled(p, e) then p
    else
      match e
      case Start => StartPolling(p)
      case ConnectDelayElapsed => OnConnectDelay(p)
      case SocketConnect => OnConnect(p)
      case SocketData(chunk) => OnData(p, chunk, decode)
      case PollDelayElapsed => OnTick(p)
      case SocketClose => OnClose(p)
      case Stop => StopPolling(p)
  }

  function Run(p: Poller, es: seq<Event>, decode: string -> Option<Response>): Poller
    decreases |es|
  {
    if |es| == 0 then p else Run(Step(p, es[0], decode), es[1..], decode)
  }
}

=== FILE: mpv_command_line.dfy ===
/** The argument vector `handleMpvUri` gives to the player: the stream URL,
    the Basic authorization header, the optional start position and
    subtitle file, and the IPC server path, with empty slots dropped. */
module MpvCommandLine {
  import opened Wrappers
  import opened Decimal
  import Utf8
  import Base64
  import opened MpvUri

  const HeaderPrefix := "--http-header-fields=Authorization: Basic "
  /** The named pipe `\\.\pipe\mpvsocket` the player listens on. */
  const IpcServerArg := "--input-ipc-server=\\\\.\\pipe\\mpvsocket"

  /** `Buffer.from(login + ":" + password).toString('base64')`. */
  function BasicToken(login: string, password: string): string {
    Base64.Encode(Utf8.Encode(login + ":" + password))
  }

  function AuthHeaderArg(login: string, password: string): string {
    HeaderPrefix + BasicToken(login, password)
  }

  /** The start slot: `--start=<n>` when the position is above -1, else "". */
  function StartArg(position: int): string {
    if position > -1 then "--start=" + FromNat(position) else ""
  }

  /** The subtitle slot: `--sub-file=<url>` when there is a URL, else "". */
  function SubFileArg(subtitleUrl: string): string {
    if subtitleUrl != "" then "--sub-file=" + subtitleUrl else ""
  }

  /** `args.filter(arg => arg !== "")`. */
  function DropEmpty(args: seq<string>): (r: seq<string>)
    ensures |r| <= |args|
    ensures forall k :: 0 <= k < |r| ==> r[k] != ""
    ensures forall a :: a in r <==> a in args && a != ""
  {
    if |args| == 0 then []
    else if args[0] == "" then DropEmpty(args[1..])
    else [args[0]] + DropEmpty(args[1..])
  }

  /** Dropping empty strings from a concatenation drops them from each
      part. */
  lemma {:induction false} DropEmptyAppend(a: seq<string>, b: seq<string>)
    ensures DropEmpty(a + b) == DropEmpty(a) + DropEmpty(b)
  {
    if |a| > 0 {
      assert (a + b)[1..] == a[1..] + b;
      DropEmptyAppend(a[1..], b);
    } else {
      assert a + b == b;
    }
  }

  /** The five slots in their fixed order, before empty ones are dropped. */
  function Slots(req: Request, login: string, password: string): seq<string> {
    [req.url, AuthHeaderArg(login, password), StartArg(req.position), SubFileArg(req.subtitleUrl), IpcServerArg]
  }

  /** The argument vector of src/mpv-handler.ts. */
  function BuildArgs(req: Request, login: string, password: string): seq<string> {
    DropEmpty(Slots(req, login, password))
  }

  /** The argument vector spelled out: URL, header, then `--start` only for
      a position above -1, `--sub-file` only for a subtitle URL, and the
      IPC server last. */
  lemma BuildArgsShape(req: Request, login: string, password: string)
    requires WellFormed(req)
    ensures BuildArgs(req, login, password)
         == [req.url, AuthHeaderArg(login, password)]
            + (if req.position > -1 then ["--start=" + FromNat(req.position)] else [])
            + (if req.subtitleUrl != "" then ["--sub-file=" + req.subtitleUrl] else [])
            + [IpcServerArg]
  {
    var s := Slots(req, login, password);
    assert s == [s[0]] + [s[1]] + [s[2]] + [s[3]] + [s[4]];
    DropEmptyAppend([s[0]] + [s[1]] + [s[2]] + [s[3]], [s[4]]);
    DropEmptyAppend([s[0]] + [s[1]] + [s[2]], [s[3]]);
    DropEmptyAppend([s[0]] + [s[1]], [s[2]]);
    DropEmptyAppend([s[0]], [s[1]]);
    assert |HeaderPrefix + BasicToken(login, password)| > 0;
    assert |"--start="| > 0 && |"--sub-file="| > 0;
  }

  /** Whether some argument starts with `name`. */
  predicate HasOption(args: seq<string>, name: string) {
    exists k :: 0 <= k < |args| && HasAt(args[k], 0, name)
  }

  /** The fixed tokens start with "h" (the URL) or with "--h" and "--i", so
      they are never taken for a `--start=` or `--sub-file=` option. */
  lemma FixedTokensAreNotOptions(req: Request, login: string, password: string, name: string)
    requires WellFormed(req)
    requires name == "--start=" || name == "--sub-file="
    ensures !HasAt(req.url, 0, name)
    ensures !HasAt(AuthHeaderArg(login, password), 0, name)
    ensures !HasAt(IpcServerArg, 0, name)
  {
    assert req.url[0] == 'h';
    assert AuthHeaderArg(login, password)[2] == 'h';
    assert IpcServerArg[2] == 'i';
  }

  /** What every argument vector looks like: no empty token, the URL first,
      the header second, the IPC server last, a `--start=` option exactly
      when the position is above -1 and a `--sub-file=` option exactly
      when there is a subtitle URL, so that the length is 3 plus one for
      each. */
  lemma BuildArgsProperties(req: Request, login: string, password: string)
    requires WellFormed(req)
    ensures var args := BuildArgs(req, login, password);
            && (forall k :: 0 <= k < |args| ==> args[k] != "")
            && |args| == 3 + (if req.position > -1 then 1 else 0) + (if req.subtitleUrl != "" then 1 else 0)
            && args[0] == req.url
            && args[1] == AuthHeaderArg(login, password)
            && args[|args| - 1] == IpcServerArg
            && (req.position > -1 ==> args[2] == "--start=" + FromNat(req.position))
            && (req.subtitleUrl != "" ==> args[|args| - 2] == "--sub-file=" + req.subtitleUrl)
            && (HasOption(args, "--start=") <==> req.position > -1)
            && (HasOption(args, "--sub-file=") <==> req.subtitleUrl != "")
  {
    BuildArgsShape(req, login, password);
    StartOptionIff(req, login, password);
    SubFileOptionIff(req, login, password);
  }

  /** A `--start=` option is present exactly when the position is above -1. */
  lemma StartOptionIff(req: Request, login: string, password: string)
    requires WellFormed(req)
    ensures HasOption(BuildArgs(req, login, password), "--start=") <==> req.position > -1
  {
    BuildArgsShape(req, login, password);
    var args := BuildArgs(req, login, password);
    FixedTokensAreNotOptions(req, login, password, "--start=");
    if req.position > -1 {
      var t := "--start=" + FromNat(req.position);
      assert t[..8] == "--start=";
      assert HasAt(args[2], 0, "--start=");
    }
    if req.subtitleUrl != "" {
      var t := "--sub-file=" + req.subtitleUrl;
      assert !HasAt(t, 0, "--start=") by { assert t[3] == 'u'; }
    }
  }

  /** A `--sub-file=` option is present exactly when there is a subtitle
      URL. */
  lemma SubFileOptionIff(req: Request, login: string, password: string)
    requires WellFormed(req)
    ensures HasOption(BuildArgs(req, login, password), "--sub-file=") <==> req.subtitleUrl != ""
  {
    BuildArgsShape(req, login, password);
    var args := BuildArgs(req, login, password);
    FixedTokensAreNotOptions(req, login, password, "--sub-file=");
    if req.position > -1 {
      var t := "--start=" + FromNat(req.position);
      assert !HasAt(t, 0, "--sub-file=") by { assert t[3] == 't'; }
    }
    if req.subtitleUrl != "" {
      var t := "--sub-file=" + req.subtitleUrl;
      assert t[..11] == "--sub-file=";
      assert HasAt(args[|args| - 2], 0, "--sub-file=");
    }
  }

  /** A known answer: the token for login "a" and password "b" is the
      Base64 of the bytes 61 3A 62. */
  lemma BasicTokenKnownAnswer()
    ensures BasicToken("a", "b") == "YTpi"
  {
    Utf8.KnownAnswers();
    var bytes := Utf8.Encode("a" + ":" + "b");
    assert "a" + ":" + "b" == "a:b";
    assert "a:b"[1..] == ":b" && ":b"[1..] == "b" && "b"[1..] == "";
    assert Utf8.Encode("b") == [0x62];
    assert Utf8.Encode(":b") == [0x3A, 0x62];
    assert bytes == [0x61, 0x3A, 0x62];
    assert Base64.Encode([0x61, 0x3A, 0x62]) == "YTpi";
  }

  /** The header's token decodes (Base64, then UTF-8) to exactly
      `login:password`. */
  lemma AuthHeaderRoundTrip(login: string, password: string)
    ensures var h := AuthHeaderArg(login, password);
            && |HeaderPrefix| <= |h| && h[..|HeaderPrefix|] == HeaderPrefix
            && Base64.Decode(h[|HeaderPrefix|..]) == Some(Utf8.Encode(login + ":" + password))
            && Utf8.Decode(Base64.Decode(h[|HeaderPrefix|..]).value) == Some(login + ":" + password)
  {
    var h := AuthHeaderArg(login, password);
    assert h[|HeaderPrefix|..] == BasicToken(login, password);
    Base64.DecodeEncode(Utf8.Encode(login + ":" + password));
    Utf8.DecodeEncode(login + ":" + password);
  }

  /** `handleMpvUri` up to the spawn: the argument vector for a link, or
      nothing (and no player) when the link does not match. */
  function HandleUri(uri: string, login: string, password: string): Option<seq<string>> {
    match ParseUri(uri)
    case None => None
    case Some(req) => Some(BuildArgs(req, login, password))
  }

  /** A link starts a player exactly when the pattern matches it, and then
      with the arguments of the parsed request. */
  lemma HandleUriSpawnsIffMatch(uri: string, login: string, password: string)
    ensures HandleUri(uri, login, password).Some? <==> exists p: nat, sec: bool, j: nat :: PatternAt(uri, p, sec, j)
    ensures HandleUri(uri, login, password).Some? ==>
              ParseUri(uri).Some? && WellFormed(ParseUri(uri).value)
              && HandleUri(uri, login, password).value[0] == ParseUri(uri).value.url
  {
    ParseUriNoneIff(uri);
    if ParseUri(uri).Some? {
      ParseUriWellFormed(uri);
      BuildArgsProperties(ParseUri(uri).value, login, password);
    }
  }
}

=== FILE: mpv_polling.dfy ===
/** Properties of whole runs of the polling client: the invariant every
    reachable state keeps, and what a stop, a reply or a split read can and
    cannot do. */
module MpvPolling {
  import opened Wrappers
  import opened JsText
  import opened MpvApi

  /** The queries written so far are queries, none newer than the current
      id, in strictly increasing id order. */
  ghost predicate QueriesOrdered(out: seq<string>, last: nat) {
    && (forall k :: 0 <= k < |out| ==> CommandId(out[k]).Some? && CommandId(out[k]).value <= last)
    && (forall a, b :: 0 <= a < b < |out| ==> CommandId(out[a]).value < CommandId(out[b]).value)
  }

  /** What holds in every state the client can reach. */
  ghost predicate Inv(p: Poller) {
    && p.requestId >= 1
    && (p.connectTimer == Fired <==> p.socket != NoSocket)
    && (p.connectTimer == Unarmed ==> !p.isPolling)
    && (p.socket == NoSocket || p.socket == Connecting ==> p.outbox == [] && p.pendingTicks == 0)
    && NoNewline(p.buffer)
    && QueriesOrdered(p.outbox, p.requestId)
    && (forall k :: 0 <= k < |p.reported| ==> p.reported[k] > 0)
  }

  lemma InitInv()
    ensures Inv(Init())
  {
  }

  lemma AppendQuery(out: seq<string>, last: nat, id: nat)
    requires QueriesOrdered(out, last) && (out == [] || last < id)
    ensures QueriesOrdered(out + [Command(id)], id)
  {
    CommandRoundTrip(id);
    var out' := out + [Command(id)];
    forall a, b | 0 <= a < b < |out'| ensures CommandId(out'[a]).value < CommandId(out'[b]).value {
      assert out'[a] == out[a];
    }
  }

  lemma {:induction false} StepInv(p: Poller, e: Event, decode: string -> Option<Response>)
    requires Inv(p)
    ensures Inv(Step(p, e, decode))
  {
    if Enabled(p, e) {
      match e
      case SocketConnect =>
        if p.isPolling {
          AppendQuery(p.outbox, p.requestId, p.requestId);
        }
      case PollDelayElapsed =>
        var q := OnTick(p);
        if q.outbox != p.outbox {
          AppendQuery(p.outbox, p.requestId, q.requestId);
        } else {
          assert QueriesOrdered(q.outbox, q.requestId);
        }
      case SocketData(chunk) =>
        var q := OnData(p, chunk, decode);
        if p.isPolling {
          var added := ReportsOf(CompleteLines(p.buffer + chunk), p.requestId, decode);
          assert q.reported == p.reported + added;
          forall k | 0 <= k < |q.reported| ensures q.reported[k] > 0 {
            if k >= |p.reported| {
              assert q.reported[k] == added[k - |p.reported|];
            }
          }
        }
      case _ =>
    }
  }

  lemma {:induction false} RunInv(p: Poller, es: seq<Event>, decode: string -> Option<Response>)
    requires Inv(p)
    ensures Inv(Run(p, es, decode))
    decreases |es|
  {
    if |es| > 0 {
      StepInv(p, es[0], decode);
      RunInv(Step(p, es[0], decode), es[1..], decode);
    }
  }

  /** In every reachable state each write is a query, no id is queried
      twice, ids grow, and every reported position is positive. */
  lemma Reachable(es: seq<Event>, decode: string -> Option<Response>)
    ensures var p := Run(Init(), es, decode);
      && (forall k :: 0 <= k < |p.outbox| ==> CommandId(p.outbox[k]).Some?)
      && (forall a, b :: 0 <= a < b < |p.outbox| ==> CommandId(p.outbox[a]).value < CommandId(p.outbox[b]).value)
      && (forall k :: 0 <= k < |p.reported| ==> p.reported[k] > 0)
  {
    InitInv();
    RunInv(Init(), es, decode);
  }

  /** Once polling has begun and stopped, no event writes a query or
      reports a position again: the flag is only ever set by the first
      start. */
  lemma {:induction false} StoppedStaysQuiet(p: Poller, es: seq<Event>, decode: string -> Option<Response>)
    requires Inv(p) && !p.isPolling && p.connectTimer != Unarmed
    ensures Run(p, es, decode).outbox == p.outbox
    ensures Run(p, es, decode).reported == p.reported
    ensures !Run(p, es, decode).isPolling
    decreases |es|
  {
    if |es| > 0 {
      var q := Step(p, es[0], decode);
      StepInv(p, es[0], decode);
      assert q.outbox == p.outbox && q.reported == p.reported && !q.isPolling && q.connectTimer != Unarmed;
      StoppedStaysQuiet(q, es[1..], decode);
    }
  }

  /** `stopPolling` after `startPolling` silences the client for good,
      whatever timers or socket events are still to come. */
  lemma StopSilences(p: Poller, es: seq<Event>, decode: string -> Option<Response>)
    requires Inv(p) && p.connectTimer != Unarmed
    ensures Run(StopPolling(p), es, decode).outbox == p.outbox
    ensures Run(StopPolling(p), es, decode).reported == p.reported
  {
    StoppedStaysQuiet(StopPolling(p), es, decode);
  }

  /** Stopping before the 500 ms delay has elapsed does not prevent the
      connection: the timer still fires and opens a socket, which then
      stays silent. */
  lemma StopBeforeConnectStillConnects(decode: string -> Option<Response>)
    ensures Run(Init(), [Start, Stop, ConnectDelayElapsed], decode).socket == Connecting
    ensures Run(Init(), [Start, Stop, ConnectDelayElapsed, SocketConnect], decode).outbox == []
  {
    var p1 := Step(Init(), Start, decode);
    var p2 := Step(p1, Stop, decode);
    var p3 := Step(p2, ConnectDelayElapsed, decode);
    assert p3.socket == Connecting;
    assert [Start, Stop, ConnectDelayElapsed][1..] == [Stop, ConnectDelayElapsed];
    assert [Stop, ConnectDelayElapsed][1..] == [ConnectDelayElapsed];
    assert [Start, Stop, ConnectDelayElapsed, SocketConnect][1..] == [Stop, ConnectDelayElapsed, SocketConnect];
    assert [Stop, ConnectDelayElapsed, SocketConnect][1..] == [ConnectDelayElapsed, SocketConnect];
    assert [ConnectDelayElapsed, SocketConnect][1..] == [SocketConnect];
  }

  /** Start, the connect delay and the connection write exactly one
      query: the one with id 1. */
  lemma FirstQuery(decode: string -> Option<Response>)
    ensures var p := Run(Init(), [Start, ConnectDelayElapsed, SocketConnect], decode);
            && p.outbox == [Command(1)]
            && p.isPolling && p.socket == Connected && p.requestId == 1 && p.buffer == ""
  {
    assert [Start, ConnectDelayElapsed, SocketConnect][1..] == [ConnectDelayElapsed, SocketConnect];
    assert [ConnectDelayElapsed, SocketConnect][1..] == [SocketConnect];
  }

  /** Running two event sequences one after the other is running their
      concatenation. */
  lemma {:induction false} RunSplit(p: Poller, a: seq<Event>, b: seq<Event>, decode: string -> Option<Response>)
    ensures Run(p, a + b, decode) == Run(Run(p, a, decode), b, decode)
    decreases |a|
  {
    if |a| == 0 {
      assert a + b == b;
    } else {
      assert (a + b)[0] == a[0];
      assert (a + b)[1..] == a[1..] + b;
      RunSplit(Step(p, a[0], decode), a[1..], b, decode);
    }
  }

  /** Polling goes on past the first query: whatever the first read holds,
      the 3 s timer it schedules sends the query with id 2, and the client
      is still polling on its open socket. */
  lemma PollingContinues(chunk: string, decode: string -> Option<Response>)
    ensures var p := Run(Init(), [Start, ConnectDelayElapsed, SocketConnect, SocketData(chunk), PollDelayElapsed], decode);
            && p.outbox == [Command(1), Command(2)]
            && p.isPolling && p.socket == Connected && p.requestId == 2
  {
    var first := [Start, ConnectDelayElapsed, SocketConnect];
    var next := [SocketData(chunk), PollDelayElapsed];
    assert first + next == [Start, ConnectDelayElapsed, SocketConnect, SocketData(chunk), PollDelayElapsed];
    RunSplit(Init(), first, next, decode);
    FirstQuery(decode);
    var p3 := Run(Init(), first, decode);
    var p4 := Step(p3, SocketData(chunk), decode);
    assert p4.outbox == [Command(1)] && p4.isPolling && p4.socket == Connected;
    assert p4.requestId == 1 && p4.pendingTicks > 0;
    var p5 := Step(p4, PollDelayElapsed, decode);
    assert p5.outbox == [Command(1)] + [Command(2)];
    assert next[1..] == [PollDelayElapsed];
    assert Run(p3, next, decode) == Run(p4, [PollDelayElapsed], decode);
    assert [PollDelayElapsed][1..] == [];
  }

  lemma {:induction false} UnlinesAppend(a: seq<string>, b: seq<string>)
    ensures Unlines(a + b) == Unlines(a) + Unlines(b)
  {
    if |a| > 0 {
      assert (a + b)[0] == a[0];
      assert (a + b)[1..] == a[1..] + b;
      UnlinesAppend(a[1..], b);
    } else {
      assert a + b == b;
    }
  }

  /** Reading "b + c1" and then the fragment followed by "c2" frames the
      same lines, and keeps the same fragment, as reading "b + c1 + c2" at
      once. */
  lemma {:induction false} FramingSplitsAnywhere(b: string, c1: string, c2: string)
    ensures CompleteLines(b + c1) + CompleteLines(Fragment(b + c1) + c2) == CompleteLines(b + c1 + c2)
    ensures Fragment(Fragment(b + c1) + c2) == Fragment(b + c1 + c2)
  {
    var l1, r1 := CompleteLines(b + c1), Fragment(b + c1);
    var l2, r2 := CompleteLines(r1 + c2), Fragment(r1 + c2);
    FramingPreservesContent(b + c1);
    FramingPreservesContent(r1 + c2);
    UnlinesAppend(l1, l2);
    calc {
      Unlines(l1 + l2) + r2;
      Unlines(l1) + (Unlines(l2) + r2);
      Unlines(l1) + (r1 + c2);
      (Unlines(l1) + r1) + c2;
      b + c1 + c2;
    }
    forall k | 0 <= k < |l1 + l2| ensures NoNewline((l1 + l2)[k]) {
      if k < |l1| {
        assert (l1 + l2)[k] == l1[k];
      } else {
        assert (l1 + l2)[k] == l2[k - |l1|];
      }
    }
    SplitUnique(l1 + l2, r2, b + c1 + c2);
    var pieces := Split(b + c1 + c2);
    assert pieces == (l1 + l2) + [r2];
    assert pieces[..|pieces| - 1] == l1 + l2;
  }

  /** Proof helper for `ChunkingIrrelevant`: what a data event while polling
      does to the buffer and the reports. */
  lemma DataEffect(p: Poller, chunk: string, decode: string -> Option<Response>)
    requires p.socket == Connected && p.isPolling
    ensures OnData(p, chunk, decode).buffer == Fragment(p.buffer + chunk)
    ensures OnData(p, chunk, decode).reported
         == p.reported + ReportsOf(CompleteLines(p.buffer + chunk), p.requestId, decode)
  {
  }

  /** A reply may arrive split over several reads: two data events report
      what one event with both chunks reports and keep the same fragment;
      only the number of scheduled ticks differs. */
  lemma ChunkingIrrelevant(p: Poller, c1: string, c2: string, decode: string -> Option<Response>)
    requires p.socket == Connected && p.isPolling
    ensures OnData(OnData(p, c1, decode), c2, decode).reported == OnData(p, c1 + c2, decode).reported
    ensures OnData(OnData(p, c1, decode), c2, decode).buffer == OnData(p, c1 + c2, decode).buffer
    ensures OnData(OnData(p, c1, decode), c2, decode).pendingTicks == OnData(p, c1 + c2, decode).pendingTicks + 1
  {
    var b, id := p.buffer, p.requestId;
    var q1 := OnData(p, c1, decode);
    DataEffect(p, c1, decode);
    DataEffect(q1, c2, decode);
    DataEffect(p, c1 + c2, decode);
    TwoReadsOneRead(b, c1, c2, id, decode);
    AppendAssociates(p.reported, ReportsOf(CompleteLines(b + c1), id, decode),
                     ReportsOf(CompleteLines(Fragment(b + c1) + c2), id, decode));
  }

  lemma AppendAssociates<T>(a: seq<T>, b: seq<T>, c: seq<T>)
    ensures a + (b + c) == a + b + c
  {
  }

  lemma TwoReadsOneRead(b: string, c1: string, c2: string, id: nat, decode: string -> Option<Response>)
    ensures ReportsOf(CompleteLines(b + c1), id, decode) + ReportsOf(CompleteLines(Fragment(b + c1) + c2), id, decode)
         == ReportsOf(CompleteLines(b + (c1 + c2)), id, decode)
    ensures Fragment(Fragment(b + c1) + c2) == Fragment(b + (c1 + c2))
  {
    AppendAssociates(b, c1, c2);
    FramingSplitsAnywhere(b, c1, c2);
    ReportsOfAppend(CompleteLines(b + c1), CompleteLines(Fragment(b + c1) + c2), id, decode);
  }

  /** Every position a data event reports was parsed from a complete,
      non-blank line that answers the query currently outstanding. */
  lemma DataReportsOnlyCurrentReplies(p: Poller, chunk: string, decode: string -> Option<Response>, x: int)
    requires p.socket == Connected
    requires x in OnData(p, chunk, decode).reported[|p.reported|..]
    ensures exists line :: line in CompleteLines(p.buffer + chunk) && !AllWhitespace(line)
                        && Accept(decode(line), p.requestId) == Some(x)
  {
    var q := OnData(p, chunk, decode);
    var lines := CompleteLines(p.buffer + chunk);
    assert q.reported[|p.reported|..] == ReportsOf(lines, p.requestId, decode);
    ReportsComeFromAcceptedLines(lines, p.requestId, decode, x);
    var k :| 0 <= k < |lines| && !AllWhitespace(lines[k]) && Accept(decode(lines[k]), p.requestId) == Some(x);
    assert lines[k] in lines;
  }

  /** While polling, every complete, non-blank line of a read that answers
      the query currently outstanding has its position reported by that
      read. */
  lemma DataReportsEveryCurrentReply(p: Poller, chunk: string, decode: string -> Option<Response>, k: nat, n: int)
    requires p.socket == Connected && p.isPolling
    requires k < |CompleteLines(p.buffer + chunk)|
    requires !AllWhitespace(CompleteLines(p.buffer + chunk)[k])
    requires Accept(decode(CompleteLines(p.buffer + chunk)[k]), p.requestId) == Some(n)
    ensures n in OnData(p, chunk, decode).reported[|p.reported|..]
  {
    var lines := CompleteLines(p.buffer + chunk);
    assert OnData(p, chunk, decode).reported[|p.reported|..] == ReportsOf(lines, p.requestId, decode);
    AcceptedLineReports(lines, p.requestId, decode, k, n);
  }

  /** A read holding only replies to older queries, errors, or values
      that do not reach a whole second reports nothing. */
  lemma StaleRepliesIgnored(p: Poller, chunk: string, decode: string -> Option<Response>)
    requires p.socket == Connected
    requires forall line :: line in CompleteLines(p.buffer + chunk) ==> Accept(decode(line), p.requestId).None?
    ensures OnData(p, chunk, decode).reported == p.reported
  {
    if p.isPolling {
      var lines := CompleteLines(p.buffer + chunk);
      forall k | 0 <= k < |lines| ensures Accept(decode(lines[k]), p.requestId).None? {
        assert lines[k] in lines;
      }
      UnacceptedReportNothing(lines, p.requestId, decode);
    }
  }
}

=== FILE: mpv_scenarios.dfy ===
/** Worked examples: concrete links and replies, each derived from the
    general lemmas rather than by evaluation. */
module MpvScenarios {
  import opened Wrappers
  import opened Decimal
  import opened MpvUri
  import opened MpvApi
  import opened JsNumber
  import opened JsText

  lemma SecureLinkText()
    ensures Link(true, "host/video", "42", true) + "" == "mpvs://host/video?pos=42&hasSrt"
  {
  }

  lemma SecureUrlText()
    ensures "https://" + "host/video" == "https://host/video"
    ensures ("https://" + "host/video") + ".srt" == "https://host/video.srt"
  {
  }

  lemma FortyTwo()
    ensures Value("42") == 42
  {
  }

  /** A secure link with a position and the subtitle flag: the stream is
      fetched over https, playback starts at 42 s, and the subtitles sit
      next to the stream. */
  lemma SecureLinkWithSubtitles()
    ensures ParseUri("mpvs://host/video?pos=42&hasSrt") == Some(Request("https://host/video", 42, "https://host/video.srt"))
  {
    SecureLinkText();
    SecureUrlText();
    FortyTwo();
    ParseLink(true, "host/video", "42", true, "");
  }

  lemma RepeatedMarkerText()
    ensures Link(false, "a?pos=1", "2", false) + "" == "mpv://a?pos=1?pos=2"
    ensures "http://" + "a?pos=1" == "http://a?pos=1"
    ensures Value("2") == 2
  {
  }

  /** With two `?pos=` markers the greedy payload swallows the first: the
      position is taken after the last one. */
  lemma LastMarkerWins()
    ensures ParseUri("mpv://a?pos=1?pos=2") == Some(Request("http://a?pos=1", 2, ""))
  {
    RepeatedMarkerText();
    assert forall k :: 0 <= k < |"a?pos=1"| ==> !IsLineTerminator("a?pos=1"[k]);
    ParseLink(false, "a?pos=1", "2", false, "");
  }

  lemma NoPositionText()
    ensures Link(false, "host/v", "", false) + "" == "mpv://host/v?pos="
    ensures "http://" + "host/v" == "http://host/v"
  {
  }

  /** An empty position means "no position": -1, so no `--start` option. */
  lemma EmptyPositionIsMinusOne()
    ensures ParseUri("mpv://host/v?pos=") == Some(Request("http://host/v", -1, ""))
  {
    NoPositionText();
    ParseLink(false, "host/v", "", false, "");
  }

  /** Text without a '?' cannot hold a `?pos=`. */
  lemma NoQuestionMarkNoMarker(t: string)
    requires forall k :: 0 <= k < |t| ==> t[k] != '?'
    ensures forall i: nat :: i < |t| ==> !HasAt(t, i, Marker)
  {
    forall i: nat | i < |t| ensures !HasAt(t, i, Marker) {
      if i + |Marker| <= |t| {
        assert t[i..i + |Marker|][0] == t[i];
      }
    }
  }

  lemma TrailingTextText()
    ensures Link(true, "h/v", "90", true) + "&lang=fr" == "mpvs://h/v?pos=90&hasSrt&lang=fr"
    ensures "https://" + "h/v" == "https://h/v"
    ensures ("https://" + "h/v") + ".srt" == "https://h/v.srt"
    ensures Value("90") == 90
  {
  }

  /** Whatever follows `&hasSrt` is ignored. */
  lemma TrailingTextIgnored()
    ensures ParseUri("mpvs://h/v?pos=90&hasSrt&lang=fr") == Some(Request("https://h/v", 90, "https://h/v.srt"))
  {
    TrailingTextText();
    NoQuestionMarkNoMarker("&lang=fr");
    ParseLink(true, "h/v", "90", true, "&lang=fr");
  }

  lemma MisplacedFlagText()
    ensures Link(false, "h/v", "5", false) + "&x&hasSrt" == "mpv://h/v?pos=5&x&hasSrt"
    ensures "http://" + "h/v" == "http://h/v"
    ensures Value("5") == 5
    ensures !HasAt("&x&hasSrt", 0, SrtFlag)
  {
    assert "&x&hasSrt"[..|SrtFlag|][1] == 'x';
  }

  /** `&hasSrt` counts only right after the digits: anywhere else it does
      not ask for subtitles. */
  lemma FlagMustFollowDigits()
    ensures ParseUri("mpv://h/v?pos=5&x&hasSrt") == Some(Request("http://h/v", 5, ""))
  {
    MisplacedFlagText();
    NoQuestionMarkNoMarker("&x&hasSrt");
    ParseLink(false, "h/v", "5", false, "&x&hasSrt");
  }

  lemma PlaybackTimeText()
    ensures "125" + "." + "912" == "125.912"
    ensures Value("125") == 125
    ensures "0" + "." + "4" == "0.4"
    ensures Value("0") == 0
  {
    assert "125"[..2] == "12";
    assert Value("12") == 12;
  }

  /** mpv answers "125.912" to query 7: the callback receives 125. */
  lemma ReplyReportsWholeSeconds()
    ensures Accept(Some(Response(Some(7), Some("success"), Some("125.912"))), 7) == Some(125)
  {
    PlaybackTimeText();
    AcceptFixedPoint(7, "125", "912");
  }

  /** Less than one second of playback is not reported. */
  lemma FirstSecondNotReported()
    ensures Accept(Some(Response(Some(7), Some("success"), Some("0.4"))), 7) == None
  {
    PlaybackTimeText();
    AcceptFixedPoint(7, "0", "4");
  }

  /** A reply of exactly zero seconds is not reported. */
  lemma ZeroNotReported()
    ensures Accept(Some(Response(Some(7), Some("success"), Some("0"))), 7) == None
  {
    PlaybackTimeText();
    IntegerFloor("0");
  }

  /** A reply to query 6 arriving after query 7 was sent is dropped. */
  lemma StaleReplyDropped()
    ensures Accept(Some(Response(Some(6), Some("success"), Some("125.912"))), 7) == None
  {
  }
}

=== FILE: mpv_uri.dfy ===
/** Parsing of `mpv://…?pos=…[&hasSrt]` links, following the regular
    expression `mpv([s]{0,1}):\/\/(.*)\?pos=([0-9]*)(&hasSrt)?` of
    src/mpv-handler.ts with JavaScript's matching rules: the match is not
    anchored and starts at the leftmost possible place, `.` refuses line
    terminators, `(.*)` is greedy (so the LAST `?pos=` of the line wins),
    `[0-9]*` takes every digit, and `&hasSrt` counts only right after them. */
module MpvUri {
  import opened Wrappers
  import opened Decimal
  import opened JsText

  /** `lit` occurs in `s` at index `i`. */
  predicate HasAt(s: string, i: int, lit: string) {
    0 <= i && i + |lit| <= |s| && s[i..i + |lit|] == lit
  }

  function Scheme(secure: bool): string {
    if secure then "mpvs://" else "mpv://"
  }

  function PayloadStart(i: nat, secure: bool): nat {
    i + |Scheme(secure)|
  }

  const Marker := "?pos="
  const SrtFlag := "&hasSrt"

  /** No line terminator in s[a..b]: `.*` can cross it. */
  predicate LineFree(s: string, a: nat, b: nat)
    requires b <= |s|
  {
    forall k :: a <= k < b ==> !IsLineTerminator(s[k])
  }

  /** The regular expression can match from `i`, taking the optional `s`
      when `secure`, and reading its `\?pos=` at `j`. */
  predicate PatternAt(s: string, i: nat, secure: bool, j: nat) {
    && HasAt(s, i, Scheme(secure))
    && PayloadStart(i, secure) <= j
    && HasAt(s, j, Marker)
    && LineFree(s, PayloadStart(i, secure), j)
  }

  /** Where a match starts, which scheme it read, where its `?pos=` is,
      where the digits end and whether `&hasSrt` follows them. */
  datatype Match = Match(start: nat, secure: bool, marker: nat, digitsEnd: nat, hasSrt: bool)

  /** The match JavaScript's `String.prototype.match` returns, described
      without saying how it is found: the pattern matches at the leftmost
      start, with the longest payload there, the longest digit run, and the
      optional `&hasSrt` taken whenever it is present. */
  ghost predicate IsRegexMatch(s: string, m: Match) {
    && PatternAt(s, m.start, m.secure, m.marker)
    && (forall p: nat, sec: bool, j: nat :: p < m.start ==> !PatternAt(s, p, sec, j))
    && (forall sec: bool, j: nat :: PatternAt(s, m.start, sec, j) ==> j <= m.marker)
    && m.marker + |Marker| <= m.digitsEnd <= |s|
    && AllDigits(s[m.marker + |Marker|..m.digitsEnd])
    && (m.digitsEnd < |s| ==> !IsDigit(s[m.digitsEnd]))
    && m.hasSrt == HasAt(s, m.digitsEnd, SrtFlag)
  }

  /** At most one of the two scheme spellings occurs at a given place. */
  lemma SchemeExclusive(s: string, i: nat)
    ensures !(HasAt(s, i, Scheme(true)) && HasAt(s, i, Scheme(false)))
  {
    if HasAt(s, i, Scheme(true)) {
      assert s[i..i + 6][3] == s[i..i + 7][3] == 's';
    }
  }

  /** End of the line that starts at `k`: the first line terminator at or
      after `k`, or the end of `s`. */
  function LineEnd(s: string, k: nat): (e: nat)
    requires k <= |s|
    ensures k <= e <= |s|
    ensures forall q :: k <= q < e ==> !IsLineTerminator(s[q])
    ensures e < |s| ==> IsLineTerminator(s[e])
    decreases |s| - k
  {
    if k == |s| || IsLineTerminator(s[k]) then k else LineEnd(s, k + 1)
  }

  /** The last occurrence of `?pos=` starting in [lo, hi]; this is where the
      greedy `(.*)` gives back just enough to let `\?pos=` match. */
  function LastMarker(s: string, lo: nat, hi: int): (r: Option<nat>)
    requires lo <= hi + 1
    ensures r.Some? ==> lo <= r.value <= hi && HasAt(s, r.value, Marker)
    ensures r.Some? ==> forall j :: r.value < j <= hi ==> !HasAt(s, j, Marker)
    ensures r.None? ==> forall j :: lo <= j <= hi ==> !HasAt(s, j, Marker)
    decreases hi - lo + 1
  {
    if hi < lo then None
    else if HasAt(s, hi, Marker) then Some(hi)
    else LastMarker(s, lo, hi - 1)
  }

  /** The match that starts at `i`, if the pattern can start there. */
  function MatchAt(s: string, i: nat): (r: Option<Match>)
    requires i <= |s|
    ensures r.Some? ==> r.value.start == i && PatternAt(s, i, r.value.secure, r.value.marker)
    ensures r.Some? ==> forall sec: bool, j: nat :: PatternAt(s, i, sec, j) ==> j <= r.value.marker
    ensures r.None? ==> forall sec: bool, j: nat :: !PatternAt(s, i, sec, j)
  {
    var secure := HasAt(s, i, Scheme(true));
    SchemeExclusive(s, i);
    if !HasAt(s, i, Scheme(secure)) then None
    else
      var k := PayloadStart(i, secure);
      var e := LineEnd(s, k);
      match LastMarker(s, k, e)
      case None =>
        assert forall sec: bool, j: nat :: PatternAt(s, i, sec, j) ==> sec == secure && j <= e;
        None
      case Some(j) =>
        var d := DigitRun(s, j + |Marker|);
        Some(Match(i, secure, j, d, HasAt(s, d, SrtFlag)))
  }

  /** The leftmost match starting at or after `i`. */
  function FindFrom(s: string, i: nat): (r: Option<Match>)
    requires i <= |s|
    ensures r.Some? ==> i <= r.value.start < |s| && MatchAt(s, r.value.start) == r
    decreases |s| - i
  {
    if i == |s| then None
    else
      match MatchAt(s, i)
      case Some(m) => Some(m)
      case None => FindFrom(s, i + 1)
  }

  /** The pattern cannot match at or after the end of the input. */
  lemma NoPatternPastEnd(s: string, p: nat, sec: bool, j: nat)
    requires |s| <= p
    ensures !PatternAt(s, p, sec, j)
  {
    assert !HasAt(s, p, Scheme(sec));
  }

  /** When `FindFrom` reports no match, the pattern matches nowhere from `i`
      on. */
  lemma {:induction false} FindFromNone(s: string, i: nat)
    requires i <= |s|
    requires FindFrom(s, i).None?
    ensures forall p: nat, sec: bool, j: nat :: i <= p ==> !PatternAt(s, p, sec, j)
    decreases |s| - i
  {
    if i == |s| {
      forall p: nat, sec: bool, j: nat | i <= p ensures !PatternAt(s, p, sec, j) {
        NoPatternPastEnd(s, p, sec, j);
      }
    } else {
      var none := MatchAt(s, i);
      assert none.None?;
      FindFromNone(s, i + 1);
      forall p: nat, sec: bool, j: nat | i <= p ensures !PatternAt(s, p, sec, j) {
        if p == i {
          assert !PatternAt(s, i, sec, j);
        } else {
          assert i + 1 <= p;
        }
      }
    }
  }

  /** No match is skipped: before the start that `FindFrom` reports the
      pattern cannot match. */
  lemma {:induction false} FindFromLeftmost(s: string, i: nat)
    requires i <= |s|
    requires FindFrom(s, i).Some?
    ensures forall p: nat, sec: bool, j: nat :: i <= p < FindFrom(s, i).value.start ==> !PatternAt(s, p, sec, j)
    decreases |s| - i
  {
    var here := MatchAt(s, i);
    if here.None? {
      var r := FindFrom(s, i + 1);
      assert FindFrom(s, i) == r;
      FindFromLeftmost(s, i + 1);
      forall p: nat, sec: bool, j: nat | i <= p < r.value.start ensures !PatternAt(s, p, sec, j) {
        if p == i {
          assert !PatternAt(s, i, sec, j);
        } else {
          assert i + 1 <= p;
        }
      }
    }
  }

  /** `uri.match(regex)`. */
  function Exec(s: string): Option<Match> {
    FindFrom(s, 0)
  }

  /** The matcher finds exactly the match the regular expression describes. */
  lemma ExecSound(s: string)
    requires Exec(s).Some?
    ensures IsRegexMatch(s, Exec(s).value)
  {
    var m := Exec(s).value;
    FindFromLeftmost(s, 0);
    assert MatchAt(s, m.start) == Some(m);
  }

  /** Two descriptions of a match that agree on the leftmost start and the
      longest payload are the same match. */
  lemma RegexMatchUnique(s: string, m: Match, m': Match)
    requires IsRegexMatch(s, m) && IsRegexMatch(s, m')
    ensures m == m'
  {
    assert m.start == m'.start;
    SchemeExclusive(s, m.start);
    assert m.secure == m'.secure;
    assert m.marker <= m'.marker && m'.marker <= m.marker;
    DigitRunTo(s, m.marker + |Marker|, m.digitsEnd);
    DigitRunTo(s, m.marker + |Marker|, m'.digitsEnd);
  }

  /** The parser matches exactly when the regular expression does, and then
      returns its one match. */
  lemma ExecComplete(s: string, m: Match)
    requires IsRegexMatch(s, m)
    ensures Exec(s) == Some(m)
  {
    assert PatternAt(s, m.start, m.secure, m.marker);
    if Exec(s).None? {
      FindFromNone(s, 0);
    }
    ExecSound(s);
    RegexMatchUnique(s, m, Exec(s).value);
  }

  /** A link turned into what `handleMpvUri` works with: the stream URL,
      the start position (-1 for none) and the subtitle URL ("" for none). */
  datatype Request = Request(url: string, position: int, subtitleUrl: string)

  /** The payload group `(.*)` and the digit group `([0-9]*)` of a match. */
  function Payload(s: string, m: Match): string
    requires PatternAt(s, m.start, m.secure, m.marker)
  {
    s[PayloadStart(m.start, m.secure)..m.marker]
  }

  function DigitsOf(s: string, m: Match): string
    requires IsRegexMatch(s, m)
  {
    s[m.marker + |Marker|..m.digitsEnd]
  }

  /** The request built from the groups of a match. */
  function ToRequest(s: string, m: Match): Request
    requires IsRegexMatch(s, m)
  {
    var url := "http" + (if m.secure then "s" else "") + "://" + Payload(s, m);
    var digits := DigitsOf(s, m);
    Request(url,
            if |digits| > 0 then Value(digits) else -1,
            if m.hasSrt then url + ".srt" else "")
  }

  /** Parses a link; None when the regular expression does not match. */
  function ParseUri(uri: string): Option<Request> {
    match Exec(uri)
    case None => None
    case Some(m) =>
      ExecSound(uri);
      Some(ToRequest(uri, m))
  }

  /** A request as the parser produces it. */
  predicate WellFormed(r: Request) {
    && (HasAt(r.url, 0, "http://") || HasAt(r.url, 0, "https://"))
    && r.position >= -1
    && (r.subtitleUrl == "" || r.subtitleUrl == r.url + ".srt")
  }

  /** A link the pattern matches nowhere yields no request, and every link
      it matches somewhere yields one. */
  lemma ParseUriNoneIff(uri: string)
    ensures ParseUri(uri).None? <==> forall p: nat, sec: bool, j: nat :: !PatternAt(uri, p, sec, j)
  {
    if Exec(uri).None? {
      FindFromNone(uri, 0);
    } else {
      ExecSound(uri);
    }
  }

  lemma HttpSchemes()
    ensures "http" + "s" + "://" == "https://"
    ensures "http" + "" + "://" == "http://"
  {
  }

  /** The stream URL is the payload group behind "https://" for an
      `mpvs://` link and behind "http://" for an `mpv://` link. */
  lemma ParseUriUrl(uri: string)
    requires ParseUri(uri).Some?
    ensures IsRegexMatch(uri, Exec(uri).value)
    ensures var m := Exec(uri).value;
            ParseUri(uri).value.url == (if m.secure then "https://" else "http://") + Payload(uri, m)
  {
    ExecSound(uri);
    HttpSchemes();
  }

  /** The position is -1 exactly when the digit group is empty, and the
      value of the digits otherwise. */
  lemma ParseUriPosition(uri: string)
    requires ParseUri(uri).Some?
    ensures IsRegexMatch(uri, Exec(uri).value)
    ensures var m := Exec(uri).value; var p := ParseUri(uri).value.position;
            && (p == -1 <==> DigitsOf(uri, m) == "")
            && (DigitsOf(uri, m) != "" ==> p == Value(DigitsOf(uri, m)))
  {
    ExecSound(uri);
  }

  /** The subtitle URL is the stream URL plus ".srt" exactly when `&hasSrt`
      follows the digits right away, and "" otherwise. */
  lemma ParseUriSubtitle(uri: string)
    requires ParseUri(uri).Some?
    ensures var m := Exec(uri).value; var r := ParseUri(uri).value;
            && (r.subtitleUrl == r.url + ".srt" <==> HasAt(uri, m.digitsEnd, SrtFlag))
            && (r.subtitleUrl == "" <==> !HasAt(uri, m.digitsEnd, SrtFlag))
  {
    ExecSound(uri);
    var r := ParseUri(uri).value;
    assert |r.url + ".srt"| > 0;
  }

  /** Every parsed request has an http or https URL, a position of at least -1
      and a subtitle URL that is empty or derived from the stream URL. */
  lemma ParseUriWellFormed(uri: string)
    requires ParseUri(uri).Some?
    ensures WellFormed(ParseUri(uri).value)
  {
    ParseUriUrl(uri);
    var m := Exec(uri).value;
    var url := ParseUri(uri).value.url;
    if m.secure {
      assert url[..8] == "https://";
    } else {
      assert url[..7] == "http://";
    }
    assert |url + ".srt"| > 0;
  }
  /** A link in the shape the web front end writes: scheme, payload,
      `?pos=`, the digits, and `&hasSrt` when subtitles exist. */
  function Link(secure: bool, payload: string, digits: string, srt: bool): string {
    Scheme(secure) + payload + Marker + digits + (if srt then SrtFlag else "")
  }

  /** Text after a link that leaves its match alone: it holds no `?pos=`,
      does not continue the digits, and does not supply a missing
      `&hasSrt`. */
  predicate QuietTail(tail: string, srt: bool) {
    && (forall i: nat :: i < |tail| ==> !HasAt(tail, i, Marker))
    && (!srt && |tail| > 0 ==> !IsDigit(tail[0]))
    && (!srt ==> !HasAt(tail, 0, SrtFlag))
  }

  /** After the `?pos=` of a link nothing can start another `?pos=`. */
  lemma NoMarkerAfter(secure: bool, payload: string, digits: string, srt: bool, tail: string, j: nat)
    requires AllDigits(digits) && QuietTail(tail, srt)
    requires |Scheme(secure) + payload| < j
    ensures !HasAt(Link(secure, payload, digits, srt) + tail, j, Marker)
  {
    var s := Link(secure, payload, digits, srt) + tail;
    var m := |Scheme(secure) + payload|;
    var d := m + |Marker| + |digits|;
    LinkLayout(secure, payload, digits, srt, tail);
    if j < m + |Marker| {
      NoMarkerInMarker(s, m, j);
    } else if j < d {
      NoMarkerInDigits(s, m + |Marker|, d, digits, j);
    } else {
      NoMarkerInEnd(s, d, srt, tail, j);
    }
  }

  /** No `?pos=` starts inside another one. */
  lemma NoMarkerInMarker(s: string, m: nat, j: nat)
    requires m < j < m + |Marker| <= |s| && s[m..m + |Marker|] == Marker
    ensures !HasAt(s, j, Marker)
  {
    assert s[j] == s[m..m + |Marker|][j - m];
    if j + |Marker| <= |s| {
      assert s[j..j + |Marker|][0] == s[j];
    }
  }

  /** No `?pos=` starts among digits. */
  lemma NoMarkerInDigits(s: string, a: nat, d: nat, digits: string, j: nat)
    requires a <= j < d <= |s| && s[a..d] == digits && AllDigits(digits)
    ensures !HasAt(s, j, Marker)
  {
    assert s[j] == s[a..d][j - a];
    if j + |Marker| <= |s| {
      assert s[j..j + |Marker|][0] == s[j];
    }
  }

  /** Nor can one start in the flag or the tail. */
  lemma NoMarkerInEnd(s: string, d: nat, srt: bool, tail: string, j: nat)
    requires d <= j && d <= |s| && s[d..] == (if srt then SrtFlag else "") + tail
    requires QuietTail(tail, srt)
    ensures !HasAt(s, j, Marker)
  {
    var flag := if srt then SrtFlag else "";
    if j + |Marker| <= |s| {
      if j < d + |flag| {
        assert s[j] == s[d..][j - d] == flag[j - d];
        assert s[j..j + |Marker|][0] == s[j];
      } else {
        var t := j - d - |flag|;
        assert s[j..j + |Marker|] == s[d..][j - d..j - d + |Marker|];
        assert s[d..][j - d..j - d + |Marker|] == tail[t..t + |Marker|];
        assert !HasAt(tail, t, Marker);
      }
    }
  }

  /** Where the parts of a link followed by a tail sit. */
  lemma LinkLayout(secure: bool, payload: string, digits: string, srt: bool, tail: string)
    ensures var s := Link(secure, payload, digits, srt) + tail;
            var sch := Scheme(secure);
            var m := |sch + payload|;
            var d := m + |Marker| + |digits|;
            && |s| == d + |if srt then SrtFlag else ""| + |tail|
            && s[..|sch|] == sch
            && s[|sch|..m] == payload
            && s[m..m + |Marker|] == Marker
            && s[m + |Marker|..d] == digits
            && s[d..] == (if srt then SrtFlag else "") + tail
  {
    var s := Link(secure, payload, digits, srt) + tail;
    var sch := Scheme(secure);
    var flag := if srt then SrtFlag else "";
    assert s == sch + payload + Marker + digits + flag + tail;
  }

  /** The match of a link followed by a quiet tail: at its start, reading
      its last `?pos=`. */
  lemma LinkMatch(secure: bool, payload: string, digits: string, srt: bool, tail: string)
    requires forall k :: 0 <= k < |payload| ==> !IsLineTerminator(payload[k])
    requires AllDigits(digits) && QuietTail(tail, srt)
    ensures var m := |Scheme(secure) + payload|;
            var mt := Match(0, secure, m, m + |Marker| + |digits|, srt);
            var s := Link(secure, payload, digits, srt) + tail;
            && IsRegexMatch(s, mt)
            && Payload(s, mt) == payload
            && DigitsOf(s, mt) == digits
  {
    var s := Link(secure, payload, digits, srt) + tail;
    var sch := Scheme(secure);
    var m := |sch + payload|;
    var d := m + |Marker| + |digits|;
    LinkLayout(secure, payload, digits, srt, tail);
    assert LineFree(s, PayloadStart(0, secure), m) by {
      forall k | |sch| <= k < m ensures !IsLineTerminator(s[k]) {
        assert s[k] == s[|sch|..m][k - |sch|];
      }
    }
    assert PatternAt(s, 0, secure, m);
    forall sec: bool, j: nat | PatternAt(s, 0, sec, j) ensures j <= m {
      if j > m {
        NoMarkerAfter(secure, payload, digits, srt, tail, j);
      }
    }
    LinkEnd(s, d, srt, tail);
  }

  /** What follows the digits of a link: `&hasSrt` exactly when the flag
      was written, and never another digit. */
  lemma LinkEnd(s: string, d: nat, srt: bool, tail: string)
    requires d <= |s| && s[d..] == (if srt then SrtFlag else "") + tail
    requires QuietTail(tail, srt)
    ensures d < |s| ==> !IsDigit(s[d])
    ensures HasAt(s, d, SrtFlag) == srt
  {
    if srt {
      assert s[d] == s[d..][0] == '&';
      assert s[d..d + |SrtFlag|] == s[d..][..|SrtFlag|];
    } else {
      assert s[d..] == tail;
      if d < |s| {
        assert s[d] == tail[0];
      }
      if d + |SrtFlag| <= |s| {
        assert s[d..d + |SrtFlag|] == tail[..|SrtFlag|];
      }
    }
  }

  /** Parsing a link gives back what it was written from: the scheme's
      http or https in front of the payload, the position (-1 when the
      digits are empty) and the subtitle URL when the flag is there; a
      quiet tail after the link changes nothing. */
  lemma ParseLink(secure: bool, payload: string, digits: string, srt: bool, tail: string)
    requires forall k :: 0 <= k < |payload| ==> !IsLineTerminator(payload[k])
    requires AllDigits(digits) && QuietTail(tail, srt)
    ensures var url := (if secure then "https://" else "http://") + payload;
            ParseUri(Link(secure, payload, digits, srt) + tail)
              == Some(Request(url,
                              if digits == "" then -1 else Value(digits),
                              if srt then url + ".srt" else ""))
  {
    var s := Link(secure, payload, digits, srt) + tail;
    var m := |Scheme(secure) + payload|;
    var mt := Match(0, secure, m, m + |Marker| + |digits|, srt);
    LinkMatch(secure, payload, digits, srt, tail);
    ExecComplete(s, mt);
    ParseUriUrl(s);
  }
}

=== FILE: utf8.dfy ===
/** UTF-8, the encoding `Buffer.from(string)` applies before the bytes are
    turned into Base64. A Dafny `char` is a Unicode scalar value, which is
    what a well-formed JavaScript string spells in UTF-16. */
module Utf8 {
  import opened Wrappers

  type Byte = b: int | 0 <= b < 256

  predicate IsScalar(cp: int) {
    (0 <= cp < 0xD800) || (0xE000 <= cp < 0x11_0000)
  }

  predicate IsContinuation(b: Byte) {
    0x80 <= b < 0xC0
  }

  /** The one to four bytes of one scalar value, shortest form. */
  function EncodeChar(c: char): (bs: seq<Byte>)
    ensures 1 <= |bs| <= 4
    ensures |bs| == 1 <==> c as int < 0x80
    ensures forall k :: 1 <= k < |bs| ==> IsContinuation(bs[k])
  {
    var cp := c as int;
    if cp < 0x80 then [cp]
    else if cp < 0x800 then [0xC0 + cp / 64, 0x80 + cp % 64]
    else if cp < 0x1_0000 then [0xE0 + cp / 4096, 0x80 + (cp / 64) % 64, 0x80 + cp % 64]
    else [0xF0 + cp / 262144, 0x80 + (cp / 4096) % 64, 0x80 + (cp / 64) % 64, 0x80 + cp % 64]
  }

  /** Known answers: ASCII is one byte of the same value, and U+00E9 and
      U+20AC take the two- and three-byte forms of section 3 of RFC 3629. */
  lemma KnownAnswers()
    ensures EncodeChar('a') == [0x61]
    ensures EncodeChar(':') == [0x3A]
    ensures EncodeChar('\U{00E9}') == [0xC3, 0xA9]
    ensures EncodeChar('\U{20AC}') == [0xE2, 0x82, 0xAC]
    ensures EncodeChar('\U{1F600}') == [0xF0, 0x9F, 0x98, 0x80]
  {
  }

  function Encode(s: string): (bs: seq<Byte>)
    ensures |s| <= |bs| <= 4 * |s|
  {
    if |s| == 0 then [] else EncodeChar(s[0]) + Encode(s[1..])
  }

  /** Reads one scalar value from the front of `bs`: the character and the
      number of bytes it took. Overlong forms, surrogates and values past
      U+10FFFF are refused. */
  function DecodeFirst(bs: seq<Byte>): (r: Option<(char, nat)>)
    ensures r.Some? ==> 1 <= r.value.1 <= |bs|
  {
    if |bs| == 0 then None
    else
      var b0: int := bs[0];
      if b0 < 0x80 then Some((b0 as char, 1))
      else if 0xC0 <= b0 < 0xE0 && |bs| >= 2 && IsContinuation(bs[1]) then
        var cp := (b0 - 0xC0) * 64 + (bs[1] as int - 0x80);
        if 0x80 <= cp then Some((cp as char, 2)) else None
      else if 0xE0 <= b0 < 0xF0 && |bs| >= 3 && IsContinuation(bs[1]) && IsContinuation(bs[2]) then
        var cp := ((b0 - 0xE0) * 64 + (bs[1] as int - 0x80)) * 64 + (bs[2] as int - 0x80);
        if 0x800 <= cp && IsScalar(cp) then Some((cp as char, 3)) else None
      else if 0xF0 <= b0 < 0xF8 && |bs| >= 4
              && IsContinuation(bs[1]) && IsContinuation(bs[2]) && IsContinuation(bs[3]) then
        var cp := (((b0 - 0xF0) * 64 + (bs[1] as int - 0x80)) * 64 + (bs[2] as int - 0x80)) * 64 + (bs[3] as int - 0x80);
        if 0x1_0000 <= cp < 0x11_0000 then Some((cp as char, 4)) else None
      else None
  }

  function Decode(bs: seq<Byte>): Option<string>
    decreases |bs|
  {
    if |bs| == 0 then Some([])
    else
      match DecodeFirst(bs)
      case None => None
      case Some((c, n)) =>
        match Decode(bs[n..])
        case None => None
        case Some(rest) => Some([c] + rest)
  }

  /** Reading back the bytes of one character gives that character, and
      exactly its bytes are consumed, whatever follows. */
  lemma DecodeEncodeChar(c: char, rest: seq<Byte>)
    ensures DecodeFirst(EncodeChar(c) + rest) == Some((c, |EncodeChar(c)|))
  {
    var cp := c as int;
    var bs := EncodeChar(c) + rest;
    if cp < 0x80 {
    } else if cp < 0x800 {
      assert (cp / 64) * 64 + cp % 64 == cp;
    } else if cp < 0x1_0000 {
      var hi := cp / 64;
      assert hi * 64 + cp % 64 == cp;
      assert (hi / 64) * 64 + hi % 64 == hi;
      assert cp / 4096 == hi / 64;
    } else {
      var hi := cp / 64;
      var top := hi / 64;
      assert hi * 64 + cp % 64 == cp;
      assert top * 64 + hi % 64 == hi;
      assert (top / 64) * 64 + top % 64 == top;
      assert cp / 4096 == top;
      assert cp / 262144 == top / 64;
    }
  }

  /** UTF-8 loses nothing: the bytes of any string decode back to it. */
  lemma {:induction false} DecodeEncode(s: string)
    ensures Decode(Encode(s)) == Some(s)
  {
    if |s| > 0 {
      var head := EncodeChar(s[0]);
      var tail := Encode(s[1..]);
      DecodeEncodeChar(s[0], tail);
      assert (head + tail)[|head|..] == tail;
      DecodeEncode(s[1..]);
      assert [s[0]] + s[1..] == s;
    }
  }
}

=== FILE: wrappers.dfy ===
/** The Some/None datatype used for partial results (a regex that does not
    match, a JSON line that does not parse, a number that is NaN). */
module Wrappers {

  datatype Option<+T> = None | Some(value: T)
}
